=== FILE: README.md ===
# budget-bot in Dafny

A model of the Telegram bot of cupitman9/budget-bot (the telebot.v3 code under
`internal/bot`, `internal/storage` and `internal/model`). Users record income and
expense amounts per category and ask for statistics over a day or a period.

What the model covers:

- **Dialog state machine.** Each update (a command, free text or an inline-button
  press) goes through the handler registered for it. It acts on a `World`: the global
  `userSessions` map plus the database. It yields the new world, the replies actually
  delivered, and whether the handler goroutine panicked (`Registration.Step`).
- **The outside world.** What lies outside the program is given per update as an
  `Env`: the current instant, which SQL statements fail and with what error text, and
  which transport call fails first. What `strconv.ParseFloat`, `%.1f` and `%q` do is a
  `Platform` of opaque functions.
- **Callback payloads.** A telebot data button carries `"\f" + unique`. The bot
  registers only the catch-all `OnCallback`, so the data returns form feed included.
  `handleCallback` strips every form feed, splits at `:` and dispatches on the first
  piece (`Payloads`).
- **Keyboards.** The category picker puts three buttons to a row. The loop that does it
  is a verified method (`Payloads.CategoryRows`).
- **Period parsing.** The period text is `DD.MM.YYYY-DD.MM.YYYY`, Go layout
  `02.01.2006`, over a proleptic Gregorian calendar counted in seconds from
  0001-01-01 UTC (`Calendar`, `Messages.ParsePeriod`).
- **Repository.** The repository is in-memory relations: users keyed by chat id,
  categories and transactions in insertion order, soft deletes, a category serial.
  The grouped statistics query is a left-to-right scan with a reference total
  (`Storage`).
- **Statistics report.** `getStats` is modelled over an explicit key enumeration,
  because Go's map order is unspecified. Its totals and net figure are proved
  independent of that order (`Util`).

Module layout follows the Go files: `model.dfy` (model.go), `storage.dfy` (storage.go),
`util.dfy` and `maps.dfy` (util.go), `messages.dfy` (message_handler.go), `callbacks.dfy`
(callback_handler.go), `registration.dfy` (handler_registration.go). `dialog.dfy` holds
what the handler files share. `text.dfy`, `numbers.dfy` and `calendar.dfy` model the
parts of `strings`, `strconv` and `time` that the code relies on.

Where the code does something other than what it evidently means to do, the model
follows the code:

- A period evidently means both of its dates, but the end date is excluded. See Findings.
- The transaction confirmation reads as if it names the category, but it quotes the type
  piece of the payload.
- `handleCallback` accepts a `delete:` button, but `/show_categories` builds only rename
  buttons, and nothing in the telebot code builds a delete button.
- The amount buttons are evidently meant to lead to the category picker, but they carry
  `"1:"` and `"2:"`. See Findings.
- Every handler logs and returns its errors, so a repository error or a malformed button
  is evidently meant to be reported, not fatal. Some of them crash the process all the
  same; `Registration.PanicCharacterised` gives the exact list. `/start` passes its error
  as a send option when the user lookup, the user insert or the category insert fails,
  and that send panics. Callback data `rename` or `delete` without a second piece indexes
  past the pieces. So does a `transaction` payload with no second piece, or with a valid
  id but fewer than four pieces. No recover middleware is installed, so `Registration.Run`
  stops at the first such update.

## Model

| member | source | states |
|---|---|---|
| Model.StatesDistinct | internal/model/model.go:5-14 | the three dialog states are distinct and none is 0, the zero value of a fresh state; the income and expense codes differ |
| Model.IsEmptyIgnoresProfile | internal/model/model.go:48-50 | emptiness looks only at the chat id and the creation time, not the name or language; the zero user is empty; a user with a non-zero chat id is never empty |
| Storage.AddUser | internal/storage/storage.go:42-46 | an insert with a chat id already present changes nothing; otherwise exactly that user is added, no other table is touched and the table invariants hold |
| Storage.AddUserIdempotent | internal/storage/storage.go:42-46 | inserting the same chat id twice equals inserting it once, whatever the second profile |
| Storage.GetUserByChatID | internal/bot/message_handler.go:72-83 | a stored chat yields its user; a missing chat yields a user that `IsEmpty` |
| Storage.AddCategory | internal/storage/storage.go:48-52 | appends one live row with the name and chat and a fresh id distinct from every existing id; names may repeat |
| Storage.RenameCategory | internal/storage/storage.go:54-61 | only the names of rows with that id change, whatever chat owns them; an unknown id changes nothing |
| Storage.DeleteCategory | internal/storage/storage.go:63-82 | marks deleted exactly the chat's category rows with that id and the chat's transactions of it; no row disappears, nothing else changes |
| Storage.GetCategoriesByChatID | internal/storage/storage.go:84-102 | a row is listed iff it is in the table, belongs to the chat and is live, and each such row is listed exactly as often as it is stored |
| Storage.ListAfterAdd | internal/storage/storage.go:84-102 | after adding a category the chat's listing, as a multiset, is the old listing plus the new row, duplicates of a name included; in the model's table order it is the old listing followed by the new row |
| Storage.AddTransaction | internal/storage/storage.go:104-108 | appends exactly the given row and touches no other table |
| Storage.AddTransactionStats | internal/storage/storage.go:104-148 | after an insert the reference total of the statistics grows by the row's amount exactly when the row qualifies (chat, window, type, live category), and is unchanged otherwise |
| Storage.DeleteHides | internal/storage/storage.go:63-82 | after a delete the category is absent from its chat's listing and no transaction of that category reaches any statistics, while every row stays in its table |
| Storage.Tally | internal/storage/storage.go:110-148 | the grouped sums hold only keys that are the live joined category name of some qualifying transaction, and their key order enumerates the map |
| Storage.TallySum | internal/storage/storage.go:110-148 | the values of a grouped-sum map add up to the reference total of exactly the transactions of that chat, window, type tag and a live category |
| Storage.TallyCovers | internal/storage/storage.go:110-148 | every qualifying transaction's category name is a key of the map |
| Storage.TallyValue | internal/storage/storage.go:110-148 | `GROUP BY c.name`: the value under each key is the sum of exactly the qualifying transactions whose live category has that name, so categories sharing a name merge; for a name that is not a key that sum is zero |
| Storage.GetTransactionsStatsByCategory | internal/storage/storage.go:110-148 | the income and expense maps sum to the reference totals of the half-open window `[start, end)`, and each key of either map holds the sum of its own name's qualifying transactions |
| Maps.SumMapValues | internal/bot/util.go:9-15 | the loop returns the sum of all the map's values (0 for an empty map), independent of iteration order |
| Numbers.ParseItoa | internal/bot/util.go:17-19 | `ParseInt(Itoa(n), 10, 64)` gives back every int64, so ids written into payloads are read back unchanged |
| Numbers.ParseInt64Loop | internal/bot/util.go:17-19 | the digit loop with its uint64 overflow cutoff and int64 sign check agrees with the reference parse |
| Util.StatsTotals | internal/bot/util.go:21-24 | the income and expense totals are the map sums and the net figure is their difference |
| Util.TotalsOrderFree | internal/bot/util.go:21-24 | the totals are the same for any order in which Go visits the maps |
| Util.GetStats | internal/bot/util.go:21-42 | the report ends with the net label and the formatted difference of the two map sums |
| Util.ReportLayout | internal/bot/util.go:26-41 | cut at newlines, the report is the title, a blank, the income total, one line per income category, a blank, the expense total, one line per expense category, a blank and the net line: 7 + number of categories lines |
| Util.EmptyReport | internal/bot/util.go:21-42 | with no transactions the report's lines show 0 for income, expense and net and no category lines |
| Payloads.Segments | internal/bot/callback_handler.go:28-29 | the pieces hold neither form feeds nor `:` and there is always at least one piece, so the `len(prefixes) == 0` guard never fires |
| Payloads.Classify | internal/bot/callback_handler.go:27-78 | the action is decided by the first piece; rename and delete without a second piece index out of range; every other first piece is "not recognised" |
| Payloads.DecodeTransaction | internal/bot/callback_handler.go:164-180 | after removing form feeds, trimming and splitting at `:`: a panic exactly when there is no piece 1, or piece 1 is a valid id and there is no piece 3; a bad id exactly when piece 1 exists and does not parse, even with only two or three pieces; a bad amount exactly when the id parses and piece 3 is not a float; otherwise the id, piece 2 and piece 3 |
| Payloads.RenameRoundTrip | internal/bot/message_handler.go:156 | a rename button's data is classified as a rename of the same category id |
| Payloads.AmountButtonsUnrecognised | internal/bot/message_handler.go:171-172 | the amount buttons as written start with "1" or "2", which `handleCallback` does not know, so pressing either is not recognised |
| Payloads.IntendedAmountButtonsPick | internal/bot/callback_handler.go:45-54 | amount buttons carrying the type tag are dispatched to the category picker |
| Payloads.TransactionRoundTrip | internal/bot/callback_handler.go:164-185 | a picker button built from a tagged amount button decodes back to the category id, the tag and the amount text typed |
| Payloads.ChunksShape | internal/bot/callback_handler.go:100-113 | the picker layout keeps every button in order, in ceil(n/3) rows of one to three, with only the last row short |
| Payloads.ChunkRows | internal/bot/callback_handler.go:100-113 | same layout facts for the keyboard rows the picker sends |
| Payloads.CategoryRows | internal/bot/callback_handler.go:100-113 | the Go loop that closes a row after every third and after the last button builds exactly that layout |
| Payloads.PickerButtonMeaning | internal/bot/callback_handler.go:104-105 | a picker button is captioned with its category name, and pressed after a tagged amount button its data decodes as a transaction of that category with the amount button's tag and amount text |
| Dialog.Say | internal/bot/message_handler.go:57-60 | a send either delivers the reply or makes the handler return; after a return nothing is sent |
| Dialog.StatsReply | internal/bot/callback_handler.go:231-248 | a failing query sends the error text and returns; otherwise the Markdown report of the query for sender and window is sent |
| Dialog.ReportNet | internal/bot/util.go:21-42 | the report's net line is the income total minus the expense total of exactly the qualifying transactions |
| Dialog.TodayWindow | internal/bot/callback_handler.go:203-213 | the window starts at a midnight, lasts one day and contains the current instant, and it is the only such day |
| Dialog.PeriodExcludesLastDay | internal/bot/message_handler.go:242-252 | as written no instant of the last date is in the window, and a one-day period is empty |
| Dialog.IntendedPeriodWindow | internal/bot/message_handler.go:242-252 | the corrected window ends one day after the last date's midnight |
| Dialog.IntendedPeriodCoversBothDays | internal/bot/message_handler.go:242-252 | an instant is in the corrected window iff it lies between the first date's start and the last date's end |
| Calendar.MidnightNextDay | internal/bot/message_handler.go:242-243 | day numbers leave no gaps: the next date starts exactly one day after a date |
| Calendar.ParseFormat | internal/bot/message_handler.go:242-243 | `time.Parse("02.01.2006", ·)` reads back every valid date written in that layout |
| Calendar.ParseExact | internal/bot/message_handler.go:242-243 | a text the layout accepts is exactly the layout's rendering of the date read |
| Messages.HandleStart | internal/bot/message_handler.go:71-116 | a known user means no write and no reply; a new user is inserted before the default category "Общее" and welcomed; it panics iff the lookup fails or, for a new user, either insert fails; sessions are untouched and table invariants kept |
| Messages.HandleHelp | internal/bot/message_handler.go:118-133 | sends the help text and changes nothing |
| Messages.CategoryListRows | internal/bot/message_handler.go:150-158 | two one-button rows per category: its name, then a rename button for its id |
| Messages.HandleShowCategories | internal/bot/message_handler.go:135-167 | an empty list gets "no categories" and then the list message anyway; otherwise the list with a rename button per live category |
| Messages.HandleAmount | internal/bot/message_handler.go:169-179 | the type prompt with the two amount buttons; nothing changes |
| Messages.HandleStatsButtons | internal/bot/message_handler.go:181-191 | the today/period prompt; nothing changes |
| Messages.HandleRenameInput | internal/bot/message_handler.go:193-209 | renames the session's category unless the update fails; the error is reported, the confirmation is sent either way, then the session is dropped |
| Messages.HandleNewCategoryInput | internal/bot/message_handler.go:211-230 | adds the category to the chat unless the insert fails; the confirmation is sent either way, then the session is dropped |
| Messages.ParsePeriod | internal/bot/message_handler.go:232-250 | a result means two valid dates whose rendering joined by `-` is the text; a text without exactly one `-` gives none |
| Messages.ParsePeriodFormat | internal/bot/message_handler.go:232-250 | every pair of valid dates written in the layout is read back |
| Messages.PeriodStats | internal/bot/message_handler.go:252-257 | the statistics for the window as written; the dialog ends only after the report was sent |
| Messages.HandlePeriodInput | internal/bot/message_handler.go:232-258 | a bad shape gets the format error, a bad date the date error, and the dialog stays open in both cases |
| Messages.HandleOnText | internal/bot/message_handler.go:26-69 | a float text is an amount before any session is read; otherwise the session's state picks the dialog; no other sender's session changes |
| Callbacks.HandleRenameCallback | internal/bot/callback_handler.go:121-139 | a good id opens the rename dialog for it, replacing any other; a bad id is reported and changes nothing |
| Callbacks.HandleDeleteCallback | internal/bot/callback_handler.go:141-162 | a bad id never reaches the database; a good one soft-deletes, reports an error if any and says "deleted" either way |
| Callbacks.HandlePicker | internal/bot/callback_handler.go:80-119 | with categories, the pressed message is edited to the picker laid out three to a row; without categories it says so; nothing changes |
| Callbacks.RecordShowsInStats | internal/bot/callback_handler.go:215-229 | a transaction recorded now for a live category of the sender raises the sender's total of its type, and its category name's sum, by the amount in every window holding now; other senders' totals stay the same |
| Callbacks.RecordTransaction | internal/bot/callback_handler.go:181-200 | inserts the transaction unless the insert fails; the error is reported and the confirmation is sent either way |
| Callbacks.HandleTransactionCallback | internal/bot/callback_handler.go:164-201 | panics iff pieces are missing; a bad id or amount is reported and inserts nothing; otherwise the transaction is recorded |
| Callbacks.HandleToday | internal/bot/callback_handler.go:203-213 | for the midnight whose day holds the current instant, the statistics from it to the next midnight; nothing changes |
| Callbacks.HandlePeriodButton | internal/bot/callback_handler.go:65-70 | opens the period dialog, replacing any other, and asks for the dates |
| Callbacks.HandleCallback | internal/bot/callback_handler.go:27-78 | panics iff the data indexes past its pieces; unknown tags get "not recognised"; only rename and period touch sessions, and only the sender's |
| Registration.HandleAddCategory | internal/bot/handler_registration.go:33-44 | the sender's session becomes a fresh new-category dialog whatever it was, and the prompt is sent |
| Registration.Step | internal/bot/handler_registration.go:17-77 | only the sender's session can change, commands other than `/add_category` change none, a panicking update sends nothing and leaves the sessions, and the table invariants are kept |
| Registration.PanicCharacterised | internal/bot/handler_registration.go:17-77 | an update panics exactly on a failing `/start` statement or on callback data that indexes past its pieces |
| Registration.Run | internal/bot/handler_registration.go:11-77 | over any sequence of updates the table invariants hold, and the run crashes only on an update that is not panic-free |
| Registration.RunAppend | internal/bot/handler_registration.go:11-77 | processing two batches one after the other equals processing them together; a crash in the first ends everything |
| Registration.AmountTextPrompt | internal/bot/message_handler.go:26-33 | a float text gets the buttons "1:"+text and "2:"+text in every dialog state, changes nothing, and its reply does not depend on the sessions |
| Registration.UnknownTextWithoutDialog | internal/bot/message_handler.go:64-68 | other text with no dialog gets the pointer to /help and changes nothing |
| Registration.NewCategoryDialog | internal/bot/message_handler.go:211-230 | the dialog adds the category, ending with the confirmation and the session dropped even after an insert error; on success the chat's listing gains the row |
| Registration.RenameDialog | internal/bot/message_handler.go:193-209 | the dialog renames the category the session names and ends whatever the database said |
| Registration.PeriodWrongShape | internal/bot/message_handler.go:233-240 | a text without exactly one `-` gets the format error and leaves the dialog open |
| Registration.PeriodBadDate | internal/bot/message_handler.go:242-249 | a half outside the layout gets the date error and leaves the dialog open |
| Registration.PeriodGood | internal/bot/message_handler.go:232-258 | two good dates request the statistics from the first date's midnight to the second date's midnight; the dialog ends unless the query failed |
| Registration.StartKnownUser | internal/bot/message_handler.go:80-83 | `/start` for a known user writes nothing and sends nothing |
| Registration.StartNewUser | internal/bot/message_handler.go:85-115 | `/start` for a new chat inserts the user, then "Общее", then welcomes |
| Registration.StartTwice | internal/bot/message_handler.go:71-116 | a second `/start` from the same chat after a first one that did not panic changes nothing and is silent |
| Registration.AddCategoryResets | internal/bot/handler_registration.go:33-36 | `/add_category` replaces any dialog with a new-category dialog with no category id |
| Registration.UnknownCallback | internal/bot/callback_handler.go:71-75 | data whose first piece is no known tag gets "not recognised" and changes nothing |
| Registration.AmountButtonPressIgnored | internal/bot/message_handler.go:171-172 | pressing an amount button as built gets "not recognised" and changes nothing |
| Registration.RenameButtonOpensDialog | internal/bot/callback_handler.go:121-139 | a rename button opens the rename dialog for exactly its category |
| Registration.DeleteMalformedId | internal/bot/callback_handler.go:141-148 | a delete id that does not parse leaves the database untouched |
| Registration.DeleteReportsDeleted | internal/bot/callback_handler.go:141-162 | a good delete id soft-deletes the sender's category and "deleted" is the last reply even after a database error |
| Registration.PickerLayout | internal/bot/callback_handler.go:80-119 | the picker shows the sender's live categories in order, three to a row, ceil(n/3) rows, only the last short |
| Registration.TransactionBadInput | internal/bot/callback_handler.go:166-180 | a transaction press whose id or amount does not parse inserts nothing |
| Registration.IntendedTransactionFlow | internal/bot/callback_handler.go:164-201 | pressing a button of the corrected amount keyboard and then a category of the picker records the typed amount under that category and the button's type for the sender at the current instant |
| Registration.TodayStats | internal/bot/callback_handler.go:203-213 | `today` requests the statistics of the day holding the current instant and changes nothing |
| Registration.PeriodButtonOpensDialog | internal/bot/callback_handler.go:65-70 | the `period` button opens the period dialog, replacing any other |

## Left out

- Transport: the Telegram API, long polling and message rendering are not modelled. A send is only "delivered" or "failed". Which call fails is a parameter of the update.
- Markdown rendering of the report, and Telegram's 64-byte limit on callback data, are not modelled. A picker button built from a long amount text would be refused by Telegram.
- PostgreSQL and pgx: each statement's effect is a pure function on the tables. Whether it fails is a parameter. The delete transaction applies both marks or neither.
- Storage.GetCategoriesByChatID: the query has no `ORDER BY`, so PostgreSQL may return rows in any order. The model returns them in table order. The category list and the picker layout follow that order. Only the membership facts and the multiset form of Storage.ListAfterAdd hold whatever the order.
- Storage.AddTransaction: model.go declares `Transaction` with `ChatID int64` and `TransactionType uint8`. callback_handler.go:216-221 builds it with `UserChat` and a string type, and storage.go:106 reads `UserChat`, so these packages do not compile together as written. The model follows the handler and storage side. The row carries `userChat`, and its type is the string piece of the payload that storage.go:136-140 compares with `'income'` and `'expense'`. Callbacks.NewTransaction builds it that way.
- Storage.GetUserByChatID: the lookup `/start` calls is not defined in storage.go. The model reads the users table, and a failed lookup is a panic of the error-as-send-option call that follows.
- Floating point: `strconv.ParseFloat` acceptance and value, `%.1f` and `%q` are opaque functions. Amounts are reals, so the report's sums carry no rounding.
- Util.GetStats: the order in which Go visits a map is given as an explicit key enumeration. Only the totals are proved order-independent; the category lines follow that order.
- Clock and time zone: the current instant is a parameter. Dialog.TodayWindow cuts days at UTC midnight, whereas the code uses the process's local zone. The `02.01.2006` layout reads four-digit years, 0000 through 9999, and year 0000 is accepted as in Go; its midnights lie before the zero instant. The instant `now` may be any integer, so the today window is defined for every instant.
- Panics: telebot's `extractOptions` panics on the unsupported send option that handleStart passes (an `error` value). That library behaviour is assumed, not modelled from its source. Registration.Run ends the process at the first panic because cmd/main.go installs no recover middleware.
- Command routing: telebot decides from the text whether an update is a registered command. This covers `/cmd@bot`, `/cmd payload`, and an unregistered `/foo` falling through to the text handler. The model takes the update kind as an input and does not derive it from the text. A `TextUpdate` whose text is `/start` therefore goes to Messages.HandleOnText.
- Concurrency: telebot runs handlers in goroutines that share `userSessions` without a lock. The model processes updates one at a time, so data races on the map are out of scope.
- Logging (logrus) and configuration loading are left out. The older handler files (bot.go, register.go, handlers.go) are not part of this model.

## Findings

| source | as written | input that shows it | evidently intended | confidence | as-written member | corrected member |
|---|---|---|---|---|---|---|
| internal/bot/message_handler.go:171-172 | the amount buttons carry `strconv.Itoa(1)+":"+text` and `"2:"+text` | type `100`, press "Доход": the callback data is `"\f1:100"`, first piece `"1"`, and the reply is "Команда не распознана..." | the buttons carry `"income:"+text` and `"expense:"+text`, which `handleCallback` routes to the category picker | high (not executed) | Payloads.AmountButtonsUnrecognised | Payloads.IntendedAmountButtonsPick |
| internal/bot/message_handler.go:243-252 | the period window ends at the second date's midnight | `01.01.2024-01.01.2024` queries `[t, t)`, which is empty; transactions on the last date of any period are not counted | the window includes the whole second date, up to the following midnight | medium (not executed) | Dialog.PeriodExcludesLastDay | Dialog.IntendedPeriodCoversBothDays |

The bot's behaviour (`Registration.Step`) stays faithful to the code: it uses the as-written
buttons and window. The corrected definitions (`Payloads.IntendedAmountUnique`,
`Messages.IntendedAmountKeyboard`, `Dialog.IntendedPeriodWindow`) sit beside them.
`Registration.IntendedTransactionFlow` proves that with the corrected buttons the amount
and type flow end-to-end into the inserted transaction.

=== FILE: calendar.dfy ===
/**
 * Calendar dates read with Go's layout "02.01.2006" (two-digit day, two-digit
 * month, four-digit year, dots between) and placed on a time line of seconds
 * counted from 0001-01-01T00:00 UTC, the origin of Go's zero `time.Time`.
 */
module Calendar {
  import opened Wrappers
  import opened Numbers

  const SecondsPerDay: int := 86400

  /** The instant of Go's zero `time.Time`, the value `IsZero` tests for. */
  const ZeroTime: int := 0

  datatype Date = Date(year: int, month: int, day: int)

  predicate IsLeap(y: int) { y % 4 == 0 && (y % 100 != 0 || y % 400 == 0) }

  function DaysIn(month: int, year: int): int
    requires 1 <= month <= 12
  {
    if month == 2 then (if IsLeap(year) then 29 else 28)
    else if month == 4 || month == 6 || month == 9 || month == 11 then 30
    else 31
  }

  /** The dates the layout can express: years 0000 through 9999, real days of real months. */
  predicate ValidDate(d: Date)
  {
    0 <= d.year <= 9999 && 1 <= d.month <= 12 && 1 <= d.day <= DaysIn(d.month, d.year)
  }

  /** Days from 0001-01-01 to January 1st of year `y` (negative for year 0). */
  function DaysBeforeYear(y: int): int
  {
    365 * (y - 1) + (y - 1) / 4 - (y - 1) / 100 + (y - 1) / 400
  }

  /** Days of a common year before each month, as in Go's `daysBefore` table. */
  const CumulativeDays: seq<int> := [0, 31, 59, 90, 120, 151, 181, 212, 243, 273, 304, 334, 365]

  /** Days of year `y` before the first of `month` (13 stands for the year's end). */
  function DaysBeforeMonth(month: int, y: int): int
    requires 1 <= month <= 13
  {
    CumulativeDays[month - 1] + (if IsLeap(y) && month > 2 then 1 else 0)
  }

  /** The day number of a date: 0 for 0001-01-01. */
  function DayNumber(d: Date): int
    requires 1 <= d.month <= 12
  {
    DaysBeforeYear(d.year) + DaysBeforeMonth(d.month, d.year) + d.day - 1
  }

  /** The instant a date begins (midnight UTC). */
  function Midnight(d: Date): int
    requires 1 <= d.month <= 12
  {
    DayNumber(d) * SecondsPerDay
  }

  /** The calendar date after `d`. */
  function NextDay(d: Date): (n: Date)
    requires ValidDate(d)
    ensures 1 <= n.month <= 12 && 1 <= n.day <= DaysIn(n.month, n.year)
  {
    if d.day < DaysIn(d.month, d.year) then Date(d.year, d.month, d.day + 1)
    else if d.month < 12 then Date(d.year, d.month + 1, 1)
    else Date(d.year + 1, 1, 1)
  }

  /** Day numbers leave no gaps: the next date begins exactly one day later. */
  lemma MidnightNextDay(d: Date)
    requires ValidDate(d)
    ensures Midnight(NextDay(d)) == Midnight(d) + SecondsPerDay
  {
    if d.day == DaysIn(d.month, d.year) && d.month == 12 {
      YearLength(d.year);
    }
  }

  /** A year has 366 days when it is a leap year and 365 otherwise. */
  lemma YearLength(y: int)
    ensures DaysBeforeYear(y + 1) == DaysBeforeYear(y) + (if IsLeap(y) then 366 else 365)
  {
    LeapSteps(y);
  }

  lemma LeapSteps(y: int)
    ensures y / 4 - (y - 1) / 4 == (if y % 4 == 0 then 1 else 0)
    ensures y / 100 - (y - 1) / 100 == (if y % 100 == 0 then 1 else 0)
    ensures y / 400 - (y - 1) / 400 == (if y % 400 == 0 then 1 else 0)
  {
  }

  /** Two digits with a leading zero. */
  function Pad2(n: int): (s: string)
    requires 0 <= n < 100
    ensures |s| == 2 && AllDigits(s)
  {
    [DigitChar(n / 10), DigitChar(n % 10)]
  }

  /** Four digits with leading zeros. */
  function Pad4(n: int): (s: string)
    requires 0 <= n < 10000
    ensures |s| == 4 && AllDigits(s) && DecimalValue(s) == n
  {
    var q1, d := n / 10, n % 10;
    var q2, c := q1 / 10, q1 % 10;
    var a, b := q2 / 10, q2 % 10;
    assert n == 10 * q1 + d && q1 == 10 * q2 + c && q2 == 10 * a + b && a < 10;
    var s := [DigitChar(a), DigitChar(b), DigitChar(c), DigitChar(d)];
    Decimal4(s);
    s
  }

  /** A date written in the layout "02.01.2006". */
  function FormatDate(d: Date): string
    requires ValidDate(d)
  {
    Pad2(d.day) + "." + Pad2(d.month) + "." + Pad4(d.year)
  }

  /** Go's `getnum(value, true)`: exactly two leading digits. */
  function TwoDigits(s: string): Option<int>
  {
    if |s| >= 2 && IsDigit(s[0]) && IsDigit(s[1]) then Some(10 * DigitValue(s[0]) + DigitValue(s[1]))
    else None
  }

  /**
   * time.Parse("02.01.2006", s), step by step as the layout is consumed:
   * day digits, ".", month digits, ".", four year digits, then nothing left
   * over; finally the month must be 1..12 and the day must exist in that
   * month of that year.
   */
  function ParseDate(s: string): (r: Option<Date>)
    ensures r.Some? ==> ValidDate(r.value)
  {
    var day := TwoDigits(s);
    if day.None? then None
    else
      var v1 := s[2..];
      if !(|v1| >= 1 && v1[0] == '.') then None
      else
        var v2 := v1[1..];
        var month := TwoDigits(v2);
        if month.None? then None
        else
          var v3 := v2[2..];
          if !(|v3| >= 1 && v3[0] == '.') then None
          else
            var v4 := v3[1..];
            if !(|v4| >= 4 && IsDigit(v4[0]) && AllDigits(v4[..4])) then None
            else
              var year := DecimalValue(v4[..4]);
              Decimal4(v4[..4]);
              if |v4| > 4 then None
              else if !(1 <= month.value <= 12) then None
              else if !(1 <= day.value <= DaysIn(month.value, year)) then None
              else Some(Date(year, month.value, day.value))
  }

  /** Every date the layout can express is read back from its own text. */
  lemma ParseFormat(d: Date)
    requires ValidDate(d)
    ensures ParseDate(FormatDate(d)) == Some(d)
  {
    var s := FormatDate(d);
    assert s[2..][1..][2..][1..] == Pad4(d.year);
    assert Pad4(d.year)[..4] == Pad4(d.year);
  }

  /** The parser accepts nothing but the exact layout text of a valid date. */
  lemma ParseExact(s: string)
    requires ParseDate(s).Some?
    ensures s == FormatDate(ParseDate(s).value)
  {
    var d := ParseDate(s).value;
    var t := FormatDate(d);
    assert |s| == 10;
    assert s[2..][1..][2..][1..][..4] == s[6..10];
    assert Pad4(d.year) == s[6..10] by {
      Pad4Unique(s[6..10]);
    }
    assert s == t;
  }

  /** The value of four digits, place by place. */
  lemma Decimal4(s: string)
    requires |s| == 4 && AllDigits(s)
    ensures DecimalValue(s)
      == 1000 * DigitValue(s[0]) + 100 * DigitValue(s[1]) + 10 * DigitValue(s[2]) + DigitValue(s[3])
    ensures DecimalValue(s) < 10000
  {
    var s3, s2, s1 := s[..3], s[..2], s[..1];
    assert s3[..2] == s2 && s2[..1] == s1 && s1[..0] == [];
    assert DecimalValue(s1) == DigitValue(s[0]);
    assert DecimalValue(s2) == 10 * DigitValue(s[0]) + DigitValue(s[1]);
    assert DecimalValue(s3) == 100 * DigitValue(s[0]) + 10 * DigitValue(s[1]) + DigitValue(s[2]);
  }

  /** Four digits are determined by their value. */
  lemma Pad4Unique(s: string)
    requires |s| == 4 && AllDigits(s)
    ensures DecimalValue(s) < 10000 && Pad4(DecimalValue(s)) == s
  {
    Decimal4(s);
    var a, b, c, d := DigitValue(s[0]), DigitValue(s[1]), DigitValue(s[2]), DigitValue(s[3]);
    var n := DecimalValue(s);
    assert n == 10 * (100 * a + 10 * b + c) + d;
    assert n / 10 == 100 * a + 10 * b + c && n % 10 == d;
    assert (100 * a + 10 * b + c) / 10 == 10 * a + b && (100 * a + 10 * b + c) % 10 == c;
    assert (10 * a + b) / 10 == a && (10 * a + b) % 10 == b;
    var t := Pad4(n);
    assert t[0] == s[0] && t[1] == s[1] && t[2] == s[2] && t[3] == s[3];
  }
}

=== FILE: callbacks.dfy ===
/**
 * internal/bot/callback_handler.go: the router for inline-button presses
 * and the handler behind each tag.
 */
module Callbacks {
  import opened Wrappers
  import opened Numbers
  import opened Model
  import opened Storage
  import opened Payloads
  import opened Dialog
  import Calendar

  /** The parts of a telebot callback the handlers read: who pressed, and the button's data. */
  datatype Callback = Callback(senderId: int, data: string)

  const NotRecognisedText: string := "Команда не распознана. Пожалуйста, используйте одну из доступных команд."
  const EnterPeriodText: string := "Введите период в формате ДД.ММ.ГГГГ-ДД.ММ.ГГГГ:"
  const EnterNewNameText: string := "Введите новое название категории:"
  const ChooseCategoryText: string := "Выберите категорию:"
  const DeletedText: string := "Категория удалена."

  /**
   * `handleRenameCallback`: a well-formed id opens the rename dialog for it,
   * replacing whatever dialog the sender had; a malformed one is reported
   * and changes nothing.
   */
  function HandleRenameCallback(w: World, c: Callback, arg: string, env: Env): (p: Progress)
    ensures p.world.repo == w.repo && !p.panicked
    ensures ParseInt64(arg).None? ==>
      p.world == w && (!SendFails(env, 0) <==> p.sent == [Plain("Ошибка формата ID категории")])
    ensures ParseInt64(arg).Some? ==>
      && p.world.sessions == w.sessions[c.senderId := NewSession(StateAwaitingRenameCategory, ParseInt64(arg).value)]
      && (!SendFails(env, 0) <==> p.sent == [Plain(EnterNewNameText)])
  {
    var p := Begin(w);
    var id := ParseInt64(arg);
    if id.None? then Return(Say(p, Plain("Ошибка формата ID категории"), env))
    else Say(SetSession(p, c.senderId, NewSession(StateAwaitingRenameCategory, id.value)), Plain(EnterNewNameText), env)
  }

  /**
   * `handleDeleteCallback`: a malformed id never reaches the database;
   * otherwise the sender's category is soft-deleted, an error is reported if
   * there was one, and "deleted" is sent in either case.
   */
  function HandleDeleteCallback(w: World, c: Callback, arg: string, env: Env): (p: Progress)
    ensures p.world.sessions == w.sessions && !p.panicked
    ensures p.world.repo ==
      if ParseInt64(arg).Some? && !Fails(env, SoftDeleteCategory)
      then DeleteCategory(w.repo, c.senderId, ParseInt64(arg).value)
      else w.repo
    ensures ParseInt64(arg).None? && env.failedSend.None? ==> p.sent == [Plain("Ошибка при удалении категории.")]
    ensures ParseInt64(arg).Some? && env.failedSend.None? ==>
      p.sent == (if Fails(env, SoftDeleteCategory)
                 then [Plain("Ошибка при удалении категории: " + ErrorText(env, SoftDeleteCategory))]
                 else [])
                + [Plain(DeletedText)]
  {
    var p := Begin(w);
    var id := ParseInt64(arg);
    if id.None? then Return(Say(p, Plain("Ошибка при удалении категории."), env))
    else
      var p := if Fails(env, SoftDeleteCategory)
        then Say(p, Plain("Ошибка при удалении категории: " + ErrorText(env, SoftDeleteCategory)), env)
        else Store(p, DeleteCategory(p.world.repo, c.senderId, id.value));
      Say(p, Plain(DeletedText), env)
  }

  /**
   * `handleTransactionCategories`: the sender's live categories as buttons,
   * three to a row, each carrying the pressed button's data; the message
   * with the pressed button is edited to show them.
   */
  function HandlePicker(w: World, c: Callback, env: Env): (p: Progress)
    ensures p.world == w && !p.panicked
    ensures !Fails(env, ListCategories) && env.failedSend.None? ==>
      var cats := GetCategoriesByChatID(w.repo, c.senderId);
      && (|cats| == 0 ==> p.sent == [Plain("Категории отсутствуют.")])
      && (|cats| > 0 ==> p.sent == [Edit(ChooseCategoryText, ChunkRows(PickerButtons(cats, c.data)))])
    ensures Fails(env, ListCategories) && env.failedSend.None? ==> p.sent == [Plain("Ошибка при получении категорий.")]
  {
    var p := Begin(w);
    if Fails(env, ListCategories) then Return(Say(p, Plain("Ошибка при получении категорий."), env))
    else
      var cats := GetCategoriesByChatID(w.repo, c.senderId);
      if |cats| == 0 then Say(p, Plain("Категории отсутствуют."), env)
      else Say(p, Edit(ChooseCategoryText, ChunkRows(PickerButtons(cats, c.data))), env)
  }

  /** The confirmation of a transaction: the amount text as typed and the `%q`-quoted type piece. */
  function TransactionAddedText(amountText: string, categoryType: string, pf: Platform): string
  {
    "Транзакция на сумму " + amountText + " в категорию " + pf.quote(categoryType) + " добавлена."
  }

  /** `handleTransaction`: the row `AddTransaction` inserts, stamped with the current instant. */
  function NewTransaction(sender: int, categoryId: int, amount: real, categoryType: string, now: int): (t: TransactionRow)
    ensures t.userChat == sender && t.categoryId == categoryId && t.amount == amount
    ensures t.transactionType == categoryType && t.createdAt == now && !t.isDeleted
  {
    TransactionRow(sender, categoryId, amount, categoryType, now, false)
  }

  /**
   * A transaction recorded now for a live category of the sender shows up in
   * the sender's statistics of its type for any window holding now, under
   * the category's name; the statistics of other senders do not change.
   */
  lemma RecordShowsInStats(r: Repo, sender: int, id: int, amount: real, kind: string, now: int, start: int, end: int, other: int)
    requires start <= now < end && JoinedName(r.categories, id).Some?
    requires other != sender
    ensures var r' := AddTransaction(r, NewTransaction(sender, id, amount, kind, now));
      && QualifyingTotal(r'.categories, r'.transactions, sender, start, end, kind)
        == QualifyingTotal(r.categories, r.transactions, sender, start, end, kind) + amount
      && NameTotal(r'.categories, r'.transactions, sender, start, end, kind, JoinedName(r.categories, id).value)
        == NameTotal(r.categories, r.transactions, sender, start, end, kind, JoinedName(r.categories, id).value) + amount
      && QualifyingTotal(r'.categories, r'.transactions, other, start, end, kind)
        == QualifyingTotal(r.categories, r.transactions, other, start, end, kind)
  {
    var t := NewTransaction(sender, id, amount, kind, now);
    AddTransactionStats(r, t, sender, start, end, kind);
    AddTransactionStats(r, t, other, start, end, kind);
    var txs := AddTransaction(r, t).transactions;
    assert txs[..|txs| - 1] == r.transactions;
  }

  /**
   * The end of `handleTransactionCallback` once the fields are decoded:
   * insert the transaction, report an insert error if there was one, and
   * confirm in either case.
   */
  function RecordTransaction(w: World, c: Callback, id: int, categoryType: string, amountText: string,
                             env: Env, pf: Platform): (p: Progress)
    ensures p.world.sessions == w.sessions && !p.panicked
    ensures p.world.repo == (if Fails(env, InsertTransaction) then w.repo
      else AddTransaction(w.repo, NewTransaction(c.senderId, id, pf.floatValue(amountText), categoryType, env.now)))
    ensures env.failedSend.None? ==>
      p.sent == (if Fails(env, InsertTransaction) then [Plain("Ошибка при создании и сохранении транзакции")] else [])
        + [Plain(TransactionAddedText(amountText, categoryType, pf))]
  {
    var p := Begin(w);
    var t := NewTransaction(c.senderId, id, pf.floatValue(amountText), categoryType, env.now);
    var p := if Fails(env, InsertTransaction)
      then Say(p, Plain("Ошибка при создании и сохранении транзакции"), env)
      else Store(p, AddTransaction(p.world.repo, t));
    Say(p, Plain(TransactionAddedText(amountText, categoryType, pf)), env)
  }

  /**
   * `handleTransactionCallback`: decode the category id, the type and the
   * amount; an undecodable id or amount is reported and inserts nothing; a
   * missing piece panics; otherwise the transaction is recorded.
   */
  function HandleTransactionCallback(w: World, c: Callback, env: Env, pf: Platform): (p: Progress)
    ensures p.world.sessions == w.sessions
    ensures p.panicked <==> DecodeTransaction(c.data, pf.isFloat).Truncated?
    ensures p.panicked ==> p.world == w && p.sent == []
    ensures !DecodeTransaction(c.data, pf.isFloat).Fields? ==> p.world == w
    ensures DecodeTransaction(c.data, pf.isFloat).BadCategoryId? && env.failedSend.None? ==>
      p.sent == [Plain("Ошибка при обработке категории")]
    ensures DecodeTransaction(c.data, pf.isFloat).BadAmount? && env.failedSend.None? ==>
      p.sent == [Plain("Ошибка при обработке суммы")]
    ensures DecodeTransaction(c.data, pf.isFloat).Fields? ==>
      var f := DecodeTransaction(c.data, pf.isFloat);
      p == RecordTransaction(w, c, f.categoryId, f.categoryType, f.amountText, env, pf)
  {
    var f := DecodeTransaction(c.data, pf.isFloat);
    match f
    case Truncated => Panic(Begin(w))
    case BadCategoryId => Say(Begin(w), Plain("Ошибка при обработке категории"), env)
    case BadAmount => Say(Begin(w), Plain("Ошибка при обработке суммы"), env)
    case Fields(id, categoryType, amountText) => RecordTransaction(w, c, id, categoryType, amountText, env, pf)
  }

  /** `handleTodayCallback`: the statistics of the day that holds the current instant, midnight to midnight. */
  function HandleToday(w: World, c: Callback, env: Env, pf: Platform): (p: Progress)
    ensures p.world == w && !p.panicked
    ensures forall start :: DayHolding(start, env.now) ==>
      p == StatsReply(Begin(w), c.senderId, start, start + Calendar.SecondsPerDay, env, pf)
  {
    var window := TodayWindow(env.now);
    var p := StatsReply(Begin(w), c.senderId, window.0, window.1, env, pf);
    assert forall start | DayHolding(start, env.now) ::
      p == StatsReply(Begin(w), c.senderId, start, start + Calendar.SecondsPerDay, env, pf)
    by {
      forall start | DayHolding(start, env.now)
        ensures p == StatsReply(Begin(w), c.senderId, start, start + Calendar.SecondsPerDay, env, pf)
      {
        TodayWindowIs(env.now, start);
      }
    }
    p
  }

  /** The `period` case: open the period dialog, replacing any other, and ask for the dates. */
  function HandlePeriodButton(w: World, c: Callback, env: Env): (p: Progress)
    ensures p.world == w.(sessions := w.sessions[c.senderId := NewSession(StateAwaitingPeriod, 0)])
    ensures !p.panicked && (!SendFails(env, 0) <==> p.sent == [Plain(EnterPeriodText)])
  {
    Say(SetSession(Begin(w), c.senderId, NewSession(StateAwaitingPeriod, 0)), Plain(EnterPeriodText), env)
  }

  /**
   * `handleCallback`: dispatch on the first piece of the data. Rename and
   * delete without a second piece index past the end of the pieces and panic.
   */
  function HandleCallback(w: World, c: Callback, env: Env, pf: Platform): (p: Progress)
    ensures Classify(c.data).Unrecognised? ==>
      p.world == w && !p.panicked && (!SendFails(env, 0) <==> p.sent == [Plain(NotRecognisedText)])
    ensures Classify(c.data).IndexOutOfRange? ==> p.world == w && p.sent == [] && p.panicked
    ensures p.panicked <==>
      Classify(c.data).IndexOutOfRange? || (Classify(c.data).TransactionAction? && DecodeTransaction(c.data, pf.isFloat).Truncated?)
    ensures p.panicked ==> p.world == w && p.sent == []
    ensures forall id :: id != c.senderId ==>
      (id in p.world.sessions <==> id in w.sessions) && (id in w.sessions ==> p.world.sessions[id] == w.sessions[id])
    ensures !Classify(c.data).RenameAction? && !Classify(c.data).PeriodAction? ==> p.world.sessions == w.sessions
  {
    match Classify(c.data)
    case IndexOutOfRange => Panic(Begin(w))
    case RenameAction(arg) => HandleRenameCallback(w, c, arg, env)
    case DeleteAction(arg) => HandleDeleteCallback(w, c, arg, env)
    case PickCategory => HandlePicker(w, c, env)
    case TransactionAction => HandleTransactionCallback(w, c, env, pf)
    case TodayAction => HandleToday(w, c, env, pf)
    case PeriodAction => HandlePeriodButton(w, c, env)
    case Unrecognised => Say(Begin(w), Plain(NotRecognisedText), env)
  }
}

=== FILE: dialog.dfy ===
/**
 * What every handler of internal/bot shares: the state an update acts on
 * (the global `userSessions` map and the database), what the outside world
 * decides for one update (the clock, failing statements, a failing send),
 * the outgoing replies, and the statistics reply both handler types send.
 *
 * A handler is written as a sequence of steps on a `Progress`. Once the Go
 * handler has returned (an error it passes up, or a failed send, after
 * which every handler returns) the remaining steps leave the progress as it
 * is, so the straight-line Dafny mirrors Go's early `return`s.
 */
module Dialog {
  import opened Wrappers
  import opened Calendar
  import opened Model
  import opened Maps
  import opened Storage
  import opened Util
  import opened Payloads

  /** `userSessions` (keyed by sender id) and the database. */
  datatype World = World(sessions: map<int, UserSession>, repo: Repo)

  /** The statements of internal/storage/storage.go, plus the user lookup `/start` calls. */
  datatype RepoOp =
    | LookupUser
    | InsertUser
    | InsertCategory
    | UpdateCategoryName
    | SoftDeleteCategory
    | ListCategories
    | InsertTransaction
    | QueryStats

  /**
   * What the outside decides for one update: the current instant (seconds
   * from 0001-01-01 UTC), which statements fail and with what error text
   * (no handler runs a statement twice), and which transport call, counted
   * from 0 within the update, is the first to fail.
   */
  datatype Env = Env(now: int, failing: map<RepoOp, string>, failedSend: Option<nat>)

  predicate Fails(env: Env, op: RepoOp) { op in env.failing }

  function ErrorText(env: Env, op: RepoOp): string
  {
    if op in env.failing then env.failing[op] else ""
  }

  /** An update on which no statement and no send fails. */
  predicate Healthy(env: Env) { env.failing == map[] && env.failedSend.None? }

  /**
   * Library behaviour the model does not spell out: whether `strconv.ParseFloat`
   * accepts a text and its value, the `%.1f` rendering and the `%q` quoting.
   */
  datatype Platform = Platform(
    isFloat: string -> bool,
    floatValue: string -> real,
    fmt1: real -> string,
    quote: string -> string)

  /** An outgoing message with its inline keyboard, or an edit of the message whose button was pressed. */
  datatype Reply =
    | Send(text: string, keyboard: seq<Row>, markdown: bool)
    | Edit(text: string, keyboard: seq<Row>)

  function Plain(text: string): Reply { Send(text, [], false) }

  /** A handler part-way through: the state so far, the replies delivered, whether it has returned or panicked. */
  datatype Progress = Progress(world: World, sent: seq<Reply>, returned: bool, panicked: bool)

  function Begin(w: World): Progress { Progress(w, [], false, false) }

  /** The `return` of a handler. */
  function Return(p: Progress): Progress { p.(returned := true) }

  /** A run-time panic (an index out of range): the goroutine stops where it is. */
  function Panic(p: Progress): Progress
  {
    if p.returned then p else p.(returned := true, panicked := true)
  }

  /** Whether the transport call with this index within the update fails. */
  predicate SendFails(env: Env, index: nat) { env.failedSend == Some(index) }

  /**
   * One `b.Send` or `b.Edit`. A failure makes every handler return, so the
   * reply is either delivered or the handler ends here.
   */
  function Say(p: Progress, r: Reply, env: Env): (q: Progress)
    ensures q.world == p.world && q.panicked == p.panicked
    ensures p.returned ==> q == p
    ensures !p.returned && !SendFails(env, |p.sent|) ==> q.sent == p.sent + [r] && !q.returned
    ensures !p.returned && SendFails(env, |p.sent|) ==> q.sent == p.sent && q.returned
  {
    if p.returned then p
    else if SendFails(env, |p.sent|) then p.(returned := true)
    else p.(sent := p.sent + [r])
  }

  /** A successful statement's effect on the database. */
  function Store(p: Progress, repo: Repo): Progress
  {
    if p.returned then p else p.(world := p.world.(repo := repo))
  }

  /** `userSessions[id] = s` */
  function SetSession(p: Progress, id: int, s: UserSession): Progress
  {
    if p.returned then p else p.(world := p.world.(sessions := p.world.sessions[id := s]))
  }

  /** `delete(userSessions, id)` */
  function DropSession(p: Progress, id: int): Progress
  {
    if p.returned then p else p.(world := p.world.(sessions := p.world.sessions - {id}))
  }

  /** Steps taken after the handler returned change nothing; no step but `Panic` sets the panic flag. */
  lemma StepsAfterReturn(p: Progress, r: Reply, env: Env, repo: Repo, id: int, s: UserSession)
    requires p.returned
    ensures Say(p, r, env) == p && Store(p, repo) == p && SetSession(p, id, s) == p && DropSession(p, id) == p
    ensures Panic(p) == p && Return(p) == p
  {
  }

  /** The text of the statistics report for one query result. */
  function Report(s: Stats, fmt: real -> string): string
    requires Enumerates(s.income.keys, s.income.sums) && Enumerates(s.expense.keys, s.expense.sums)
  {
    GetStats(s.income.sums, s.expense.sums, s.income.keys, s.expense.keys, fmt)
  }

  /**
   * `handleStats` (identical in both handler types): query the grouped sums
   * for the sender and the window; on an error report it and return the
   * error; otherwise send the report as Markdown.
   */
  function StatsReply(p: Progress, sender: int, start: int, end: int, env: Env, pf: Platform): (q: Progress)
    ensures q.world == p.world && q.panicked == p.panicked
    ensures !p.returned && !Fails(env, QueryStats) && !SendFails(env, |p.sent|) ==>
      && !q.returned
      && q.sent == p.sent + [Send(Report(GetTransactionsStatsByCategory(p.world.repo, sender, start, end), pf.fmt1), [], true)]
    ensures Fails(env, QueryStats) ==> q.returned
    ensures Fails(env, QueryStats) && !p.returned && !SendFails(env, |p.sent|) ==>
      q.sent == p.sent + [Plain("Ошибка при получении статистики: " + ErrorText(env, QueryStats))]
  {
    if Fails(env, QueryStats) then
      Return(Say(p, Plain("Ошибка при получении статистики: " + ErrorText(env, QueryStats)), env))
    else
      var s := GetTransactionsStatsByCategory(p.world.repo, sender, start, end);
      Say(p, Send(Report(s, pf.fmt1), [], true), env)
  }

  /**
   * The report's net line is the income total minus the expense total of
   * exactly the transactions the window, the sender and a live category
   * admit, whatever order the grouped rows arrive in.
   */
  lemma ReportNet(r: Repo, sender: int, start: int, end: int, fmt: real -> string)
    ensures var report := Report(GetTransactionsStatsByCategory(r, sender, start, end), fmt);
      var net := NetLabel + fmt(QualifyingTotal(r.categories, r.transactions, sender, start, end, IncomeTag)
        - QualifyingTotal(r.categories, r.transactions, sender, start, end, ExpenseTag));
      |report| >= |net| && report[|report| - |net|..] == net
  {
    var s := GetTransactionsStatsByCategory(r, sender, start, end);
    var report := Report(s, fmt);
    assert MapSum(s.income.sums) - MapSum(s.expense.sums)
      == QualifyingTotal(r.categories, r.transactions, sender, start, end, IncomeTag)
        - QualifyingTotal(r.categories, r.transactions, sender, start, end, ExpenseTag);
  }

  /** `start` is a UTC midnight and the day it begins holds `now`. */
  predicate DayHolding(start: int, now: int)
  {
    start % SecondsPerDay == 0 && start <= now < start + SecondsPerDay
  }

  /** `[midnight today, midnight tomorrow)` of the `today` button, on the UTC day of `now`: the only such day. */
  function TodayWindow(now: int): (w: (int, int))
    ensures w.0 <= now < w.1 && w.1 == w.0 + SecondsPerDay && w.0 % SecondsPerDay == 0
    ensures forall start :: DayHolding(start, now) <==> start == w.0
  {
    var start := now - now % SecondsPerDay;
    forall other | DayHolding(other, now) ensures other == start {
      OneDayHolding(other, start, now);
    }
    (start, start + SecondsPerDay)
  }

  /** The window of the `today` button is the day holding `now`. */
  lemma TodayWindowIs(now: int, start: int)
    requires DayHolding(start, now)
    ensures TodayWindow(now) == (start, start + SecondsPerDay)
  {
    OneDayHolding(start, TodayWindow(now).0, now);
  }

  /** Two midnights whose days both hold `now` are the same midnight. */
  lemma OneDayHolding(a: int, b: int, now: int)
    requires DayHolding(a, now) && DayHolding(b, now)
    ensures a == b
  {
    var (qa, qb) := (a / SecondsPerDay, b / SecondsPerDay);
    assert a == qa * SecondsPerDay && b == qb * SecondsPerDay;
  }

  /**
   * The window `handlePeriodInput` passes on, as written: from the first
   * date's midnight to the second date's midnight, which leaves the second
   * date itself out.
   */
  function PeriodWindow(first: Date, last: Date): (int, int)
    requires ValidDate(first) && ValidDate(last)
  {
    (Midnight(first), Midnight(last))
  }

  /** Both dates included: up to the midnight that ends the second date. */
  function IntendedPeriodWindow(first: Date, last: Date): (w: (int, int))
    requires ValidDate(first) && ValidDate(last)
    ensures w.1 == Midnight(last) + SecondsPerDay
  {
    MidnightNextDay(last);
    (Midnight(first), Midnight(NextDay(last)))
  }

  /** As written, no instant of the period's last day is inside the window: a one-day period is empty. */
  lemma PeriodExcludesLastDay(first: Date, last: Date, t: int)
    requires ValidDate(first) && ValidDate(last)
    requires Midnight(last) <= t < Midnight(last) + SecondsPerDay
    ensures !(PeriodWindow(first, last).0 <= t < PeriodWindow(first, last).1)
    ensures PeriodWindow(last, last).0 == PeriodWindow(last, last).1
  {
  }

  /** The intended window holds every instant from the first date's start to the last date's end. */
  lemma IntendedPeriodCoversBothDays(first: Date, last: Date, t: int)
    requires ValidDate(first) && ValidDate(last)
    ensures var w := IntendedPeriodWindow(first, last);
      w.0 <= t < w.1 <==> Midnight(first) <= t < Midnight(last) + SecondsPerDay
  {
  }
}

=== FILE: maps.dfy ===
/**
 * Sums over the values of a `map[string]float64`, modelled with reals. Go
 * visits map entries in an unspecified order; `MapSum` is the order-free
 * reference total and `SumOver` the total along one particular visiting order.
 */
module Maps {

  /** Some key of a non-empty map (a fixed but unspecified choice). */
  ghost function Pick(m: map<string, real>): (k: string)
    requires m != map[]
    ensures k in m
  {
    var k :| k in m; k
  }

  /** The sum of all values of `m`. */
  ghost function MapSum(m: map<string, real>): real
    decreases |m|
  {
    if m == map[] then 0.0
    else
      var k := Pick(m);
      assert (m - {k}).Keys == m.Keys - {k};
      m[k] + MapSum(m - {k})
  }

  /** Any key, not only the picked one, can be taken out first. */
  lemma {:induction false} MapSumRemove(m: map<string, real>, k: string)
    requires k in m
    ensures MapSum(m) == m[k] + MapSum(m - {k})
    decreases |m|
  {
    var j := Pick(m);
    if j != k {
      var mj, mk := m - {j}, m - {k};
      assert mj.Keys == m.Keys - {j} && mk.Keys == m.Keys - {k};
      MapSumRemove(mj, k);
      MapSumRemove(mk, j);
      assert mj - {k} == mk - {j};
    }
  }

  /** Setting one entry changes the sum by the difference of old and new value. */
  lemma MapSumUpdate(m: map<string, real>, k: string, v: real)
    ensures MapSum(m[k := v]) == MapSum(m) - (if k in m then m[k] else 0.0) + v
  {
    var m' := m[k := v];
    MapSumRemove(m', k);
    if k in m {
      MapSumRemove(m, k);
      assert m' - {k} == m - {k};
    } else {
      assert m' - {k} == m;
    }
  }

  /** `keys` lists every key of `m` exactly once: one possible visiting order of a Go `range`. */
  ghost predicate Enumerates(keys: seq<string>, m: map<string, real>)
  {
    && (forall i, j :: 0 <= i < j < |keys| ==> keys[i] != keys[j])
    && (forall k :: k in m <==> k in keys)
  }

  /** The total of the values of `m` visited in the order `keys`. */
  function SumOver(keys: seq<string>, m: map<string, real>): real
    requires forall i :: 0 <= i < |keys| ==> keys[i] in m
  {
    if |keys| == 0 then 0.0 else m[keys[0]] + SumOver(keys[1..], m)
  }

  /** The visiting total only reads the visited entries. */
  lemma {:induction false} SumOverAgree(keys: seq<string>, m: map<string, real>, m': map<string, real>)
    requires forall i :: 0 <= i < |keys| ==> keys[i] in m && keys[i] in m' && m[keys[i]] == m'[keys[i]]
    ensures SumOver(keys, m) == SumOver(keys, m')
  {
    if |keys| > 0 {
      SumOverAgree(keys[1..], m, m');
    }
  }

  /** Every visiting order gives the same total: the one of `MapSum`. */
  lemma {:induction false} SumOverEnumeration(keys: seq<string>, m: map<string, real>)
    requires Enumerates(keys, m)
    ensures forall i :: 0 <= i < |keys| ==> keys[i] in m
    ensures SumOver(keys, m) == MapSum(m)
  {
    if |keys| == 0 {
      assert m == map[];
    } else {
      var k := keys[0];
      var m' := m - {k};
      var rest := keys[1..];
      assert Enumerates(rest, m') by {
        forall x
          ensures x in m' <==> x in rest
        {
          if x in rest {
            var i :| 0 <= i < |rest| && rest[i] == x;
            assert keys[i + 1] == x;
          }
          if x in m' {
            assert x in keys && x != k;
            var i :| 0 <= i < |keys| && keys[i] == x;
            assert rest[i - 1] == x;
          }
        }
      }
      SumOverEnumeration(rest, m');
      SumOverAgree(rest, m, m');
      MapSumRemove(m, k);
    }
  }

  /** util.go `sumMapValues`: a `range` over the map in whatever order it yields the keys. */
  method SumMapValues(m: map<string, real>) returns (sum: real)
    ensures sum == MapSum(m)
    ensures m == map[] ==> sum == 0.0
  {
    sum := 0.0;
    var rest := m;
    while rest != map[]
      invariant sum + MapSum(rest) == MapSum(m)
      decreases |rest|
    {
      var k :| k in rest;
      MapSumRemove(rest, k);
      sum := sum + rest[k];
      assert (rest - {k}).Keys == rest.Keys - {k};
      rest := rest - {k};
    }
  }
}

=== FILE: messages.dfy ===
/**
 * internal/bot/message_handler.go: the command handlers and the free-text
 * router `handleOnText` with the three dialogs it continues (new category
 * name, category rename, statistics period).
 */
module Messages {
  import opened Wrappers
  import opened Text
  import opened Calendar
  import opened Model
  import opened Storage
  import opened Payloads
  import opened Dialog

  /** The parts of a telebot message the handlers read. */
  datatype Message = Message(senderId: int, chatId: int, username: string, language: string, text: string)

  const DefaultCategoryName: string := "Общее"
  const WelcomeText: string := "Привет! Нажмите /help для подробной информации"
  const HelpText: string :=
    "Команды бота:\n"
    + "/start - начать работу с ботом\n"
    + "/add_category - добавить новую категорию\n"
    + "/show_categories - показать все категории\n"
    + "/stats - показать статистику\n"
    + "/help - показать эту справку\n"
    + "...\n"
    + "Для добавления транзакции просто введите сумму."
  const NotUnderstoodText: string := "Извините, я не понимаю эту команду."
  const NotUnderstoodHelpText: string := "Извините, я не понимаю эту команду. Введите /help для списка команд."
  const ChooseTypeText: string := "Выберите тип транзакции:"
  const ChoosePeriodText: string := "Выберите период:"
  const PeriodFormatErrorText: string := "Неправильный формат периода. Используйте формат ДД.ММ.ГГГГ-ДД.ММ.ГГГГ."
  const DateErrorText: string := "Ошибка в датах. Используйте формат ДД.ММ.ГГГГ."

  /**
   * `handleStart`. The three error branches pass the error value to `Send`
   * as a send option; telebot accepts only its own option types there and
   * panics on any other value, so each of those branches is a panic.
   */
  function HandleStart(w: World, m: Message, env: Env): (p: Progress)
    ensures !Fails(env, LookupUser) && !IsEmpty(GetUserByChatID(w.repo, m.chatId)) ==>
      p.world == w && p.sent == [] && !p.panicked
    ensures !Fails(env, LookupUser) && IsEmpty(GetUserByChatID(w.repo, m.chatId)) && Healthy(env) ==>
      && p.world.repo == AddCategory(AddUser(w.repo, User(m.username, m.chatId, m.language, env.now)), DefaultCategoryName, m.chatId)
      && p.sent == [Plain(WelcomeText)]
    ensures p.world.sessions == w.sessions
    ensures p.panicked ==> p.sent == []
    ensures p.panicked <==>
      Fails(env, LookupUser)
      || (IsEmpty(GetUserByChatID(w.repo, m.chatId)) && (Fails(env, InsertUser) || Fails(env, InsertCategory)))
    ensures Valid(w.repo) ==> Valid(p.world.repo)
  {
    var p := Begin(w);
    if Fails(env, LookupUser) then Panic(p)
    else
      var u := GetUserByChatID(w.repo, m.chatId);
      if !IsEmpty(u) then Return(p)
      else
        var user := User(m.username, m.chatId, m.language, env.now);
        var p := if Fails(env, InsertUser) then Panic(p) else Store(p, AddUser(p.world.repo, user));
        var p := if Fails(env, InsertCategory) then Panic(p) else Store(p, AddCategory(p.world.repo, DefaultCategoryName, m.chatId));
        Say(p, Plain(WelcomeText), env)
  }

  /** `handleHelp` */
  function HandleHelp(w: World, m: Message, env: Env): (p: Progress)
    ensures p.world == w && !p.panicked
    ensures !SendFails(env, 0) <==> p.sent == [Plain(HelpText)]
  {
    Say(Begin(w), Plain(HelpText), env)
  }

  /** Two one-button rows per category: its name, then its rename button. */
  function CategoryListRows(cats: seq<CategoryRow>): (rows: seq<Row>)
    ensures |rows| == 2 * |cats|
    ensures forall i :: 0 <= i < |cats| ==>
      rows[2 * i] == [TextButton(cats[i].name)] && rows[2 * i + 1] == [DataButton("Переименовать", RenameUnique(cats[i].id))]
  {
    if |cats| == 0 then []
    else
      var rest := CategoryListRows(cats[1..]);
      assert forall i :: 1 <= i < |cats| ==> cats[i] == cats[1..][i - 1];
      [[TextButton(cats[0].name)], [DataButton("Переименовать", RenameUnique(cats[0].id))]] + rest
  }

  /**
   * `handleShowCategories`: the chat's live categories, each with a rename
   * button. An empty list first gets "no categories" and then, all the same,
   * the "Категории:" message with no buttons.
   */
  function HandleShowCategories(w: World, m: Message, env: Env): (p: Progress)
    ensures p.world == w && !p.panicked
    ensures !Fails(env, ListCategories) && env.failedSend.None? ==>
      var cats := GetCategoriesByChatID(w.repo, m.chatId);
      p.sent == (if |cats| == 0 then [Plain("Категории отсутствуют.")] else [])
        + [Send("Категории:", CategoryListRows(cats), false)]
    ensures Fails(env, ListCategories) ==> |p.sent| <= 1
  {
    var p := Begin(w);
    if Fails(env, ListCategories) then
      Return(Say(p, Plain("Ошибка при получении категорий: " + ErrorText(env, ListCategories)), env))
    else
      var cats := GetCategoriesByChatID(w.repo, m.chatId);
      var p := if |cats| == 0 then Say(p, Plain("Категории отсутствуют."), env) else p;
      Say(p, Send("Категории:", CategoryListRows(cats), false), env)
  }

  /** The two buttons `handleIncomeExpenseButtons` offers for an amount, as written. */
  function AmountKeyboard(text: string): seq<Row>
  {
    [[DataButton("Доход", AmountUnique(TransactionTypeIncome, text)),
      DataButton("Расход", AmountUnique(TransactionTypeExpense, text))]]
  }

  /** The same two buttons with the type tags the callback router expects. */
  function IntendedAmountKeyboard(text: string): seq<Row>
  {
    [[DataButton("Доход", IntendedAmountUnique(IncomeTag, text)),
      DataButton("Расход", IntendedAmountUnique(ExpenseTag, text))]]
  }

  /** `handleIncomeExpenseButtons` */
  function HandleAmount(w: World, m: Message, env: Env): (p: Progress)
    ensures p.world == w && !p.panicked
    ensures !SendFails(env, 0) <==> p.sent == [Send(ChooseTypeText, AmountKeyboard(m.text), false)]
  {
    Say(Begin(w), Send(ChooseTypeText, AmountKeyboard(m.text), false), env)
  }

  /** `handleStatsButtons`: today or a period. */
  function HandleStatsButtons(w: World, m: Message, env: Env): (p: Progress)
    ensures p.world == w && !p.panicked
    ensures !SendFails(env, 0) <==>
      p.sent == [Send(ChoosePeriodText, [[DataButton("Сегодня", TodayTag), DataButton("Период", PeriodTag)]], false)]
  {
    Say(Begin(w), Send(ChoosePeriodText, [[DataButton("Сегодня", TodayTag), DataButton("Период", PeriodTag)]], false), env)
  }

  /** The error `RenameCategory` returns: the driver's error wrapped in its own message. */
  function RenameErrorText(env: Env): string
  {
    "не удалось переименовать категорию: " + ErrorText(env, UpdateCategoryName)
  }

  /**
   * `handleAwaitingRenameCategory`: rename the category the session names,
   * report an error if there was one, confirm in any case, then end the dialog.
   */
  function HandleRenameInput(w: World, m: Message, session: UserSession, env: Env): (p: Progress)
    ensures p.world.repo == (if Fails(env, UpdateCategoryName) then w.repo else RenameCategory(w.repo, session.categoryId, m.text))
    ensures p.world.sessions == w.sessions || p.world.sessions == w.sessions - {m.senderId}
    ensures env.failedSend.None? ==>
      && p.world.sessions == w.sessions - {m.senderId}
      && p.sent == (if Fails(env, UpdateCategoryName)
                    then [Plain("Ошибка при переименовании категории: " + RenameErrorText(env))]
                    else [])
                   + [Plain("Категория успешно переименована в '" + m.text + "'")]
    ensures !p.panicked
  {
    var p := Begin(w);
    var p := if Fails(env, UpdateCategoryName)
      then Say(p, Plain("Ошибка при переименовании категории: " + RenameErrorText(env)), env)
      else Store(p, RenameCategory(p.world.repo, session.categoryId, m.text));
    var p := Say(p, Plain("Категория успешно переименована в '" + m.text + "'"), env);
    DropSession(p, m.senderId)
  }

  /**
   * `handleAwaitingNewCategoryName`: add the text as a category of the chat
   * (names need not be unique), report an error if there was one, confirm in
   * any case, then end the dialog.
   */
  function HandleNewCategoryInput(w: World, m: Message, env: Env): (p: Progress)
    ensures p.world.repo == (if Fails(env, InsertCategory) then w.repo else AddCategory(w.repo, m.text, m.chatId))
    ensures p.world.sessions == w.sessions || p.world.sessions == w.sessions - {m.senderId}
    ensures env.failedSend.None? ==>
      && p.world.sessions == w.sessions - {m.senderId}
      && p.sent == (if Fails(env, InsertCategory)
                    then [Plain("Ошибка при добавлении категории: " + ErrorText(env, InsertCategory))]
                    else [])
                   + [Plain("Категория '" + m.text + "' успешно добавлена.")]
    ensures !p.panicked
  {
    var p := Begin(w);
    var p := if Fails(env, InsertCategory)
      then Say(p, Plain("Ошибка при добавлении категории: " + ErrorText(env, InsertCategory)), env)
      else Store(p, AddCategory(p.world.repo, m.text, m.chatId));
    var p := Say(p, Plain("Категория '" + m.text + "' успешно добавлена."), env);
    DropSession(p, m.senderId)
  }

  /** The two dates of a period text, when it has exactly one '-' and both halves follow the layout. */
  function ParsePeriod(text: string): (r: Option<(Date, Date)>)
    ensures r.Some? ==> ValidDate(r.value.0) && ValidDate(r.value.1)
    ensures r.Some? ==> text == FormatDate(r.value.0) + "-" + FormatDate(r.value.1)
    ensures Count(text, '-') != 1 ==> r.None?
  {
    var parts := Split(text, '-');
    if |parts| != 2 then None
    else
      var first := ParseDate(parts[0]);
      var last := ParseDate(parts[1]);
      if first.None? || last.None? then None
      else
        ParseExact(parts[0]);
        ParseExact(parts[1]);
        assert parts[1..] == [parts[1]];
        assert Join(parts, '-') == parts[0] + ['-'] + Join(parts[1..], '-');
        assert text == parts[0] + "-" + parts[1];
        Some((first.value, last.value))
  }

  /** Every pair of valid dates written in the layout is read back. */
  lemma ParsePeriodFormat(first: Date, last: Date)
    requires ValidDate(first) && ValidDate(last)
    ensures ParsePeriod(FormatDate(first) + "-" + FormatDate(last)) == Some((first, last))
  {
    var a, b := FormatDate(first), FormatDate(last);
    assert '-' !in a && '-' !in b by {
      assert forall i :: 0 <= i < |a| ==> a[i] == '.' || ('0' <= a[i] <= '9');
      assert forall i :: 0 <= i < |b| ==> b[i] == '.' || ('0' <= b[i] <= '9');
    }
    SplitPrefix(a, '-', b);
    SplitNoSep(b, '-');
    assert a + "-" + b == a + ['-'] + b;
    ParseFormat(first);
    ParseFormat(last);
  }

  /**
   * The end of `handlePeriodInput` for two good dates: the statistics for the
   * window, and the dialog ends only if the report went out.
   */
  function PeriodStats(w: World, sender: int, first: Date, last: Date, env: Env, pf: Platform): (p: Progress)
    requires ValidDate(first) && ValidDate(last)
    ensures p.world.repo == w.repo && !p.panicked
    ensures p.sent == StatsReply(Begin(w), sender, PeriodWindow(first, last).0, PeriodWindow(first, last).1, env, pf).sent
    ensures p.world.sessions == w.sessions || p.world.sessions == w.sessions - {sender}
    ensures env.failedSend.None? ==>
      (p.world.sessions == if Fails(env, QueryStats) then w.sessions else w.sessions - {sender})
  {
    var window := PeriodWindow(first, last);
    var p := StatsReply(Begin(w), sender, window.0, window.1, env, pf);
    DropSession(p, sender)
  }

  /**
   * `handlePeriodInput`: a text without exactly one '-' gets the format
   * error, a half that does not follow the layout gets the date error; in
   * both cases the dialog stays open.
   */
  function HandlePeriodInput(w: World, m: Message, env: Env, pf: Platform): (p: Progress)
    ensures p.world.repo == w.repo && !p.panicked
    ensures |Split(m.text, '-')| != 2 ==>
      p.world == w && (env.failedSend.None? ==> p.sent == [Plain(PeriodFormatErrorText)])
    ensures |Split(m.text, '-')| == 2 && ParsePeriod(m.text).None? ==>
      p.world == w && (env.failedSend.None? ==> p.sent == [Plain(DateErrorText)])
    ensures ParsePeriod(m.text).Some? ==>
      p == PeriodStats(w, m.senderId, ParsePeriod(m.text).value.0, ParsePeriod(m.text).value.1, env, pf)
    ensures p.world.sessions == w.sessions || p.world.sessions == w.sessions - {m.senderId}
  {
    var parts := Split(m.text, '-');
    if |parts| != 2 then Say(Begin(w), Plain(PeriodFormatErrorText), env)
    else
      var period := ParsePeriod(m.text);
      if period.None? then Return(Say(Begin(w), Plain(DateErrorText), env))
      else PeriodStats(w, m.senderId, period.value.0, period.value.1, env, pf)
  }

  /**
   * `handleOnText`: text `strconv.ParseFloat` accepts is an amount, before
   * any dialog is looked at; otherwise the sender's session decides.
   */
  function HandleOnText(w: World, m: Message, env: Env, pf: Platform): (p: Progress)
    ensures pf.isFloat(m.text) ==> p == HandleAmount(w, m, env)
    ensures !pf.isFloat(m.text) && m.senderId !in w.sessions ==>
      p.world == w && (!SendFails(env, 0) <==> p.sent == [Plain(NotUnderstoodHelpText)])
    ensures !pf.isFloat(m.text) && m.senderId in w.sessions ==>
      var session := w.sessions[m.senderId];
      && (session.state == StateAwaitingRenameCategory ==> p == HandleRenameInput(w, m, session, env))
      && (session.state == StateAwaitingNewCategoryName ==> p == HandleNewCategoryInput(w, m, env))
      && (session.state == StateAwaitingPeriod ==> p == HandlePeriodInput(w, m, env, pf))
      && (session.state !in {StateAwaitingRenameCategory, StateAwaitingNewCategoryName, StateAwaitingPeriod} ==>
            p.world == w && (!SendFails(env, 0) <==> p.sent == [Plain(NotUnderstoodText)]))
    ensures forall id :: id != m.senderId ==>
      (id in p.world.sessions <==> id in w.sessions) && (id in w.sessions ==> p.world.sessions[id] == w.sessions[id])
    ensures !p.panicked
  {
    if pf.isFloat(m.text) then HandleAmount(w, m, env)
    else if m.senderId in w.sessions then
      var session := w.sessions[m.senderId];
      if session.state == StateAwaitingRenameCategory then HandleRenameInput(w, m, session, env)
      else if session.state == StateAwaitingNewCategoryName then HandleNewCategoryInput(w, m, env)
      else if session.state == StateAwaitingPeriod then HandlePeriodInput(w, m, env, pf)
      else Say(Begin(w), Plain(NotUnderstoodText), env)
    else Say(Begin(w), Plain(NotUnderstoodHelpText), env)
  }
}

=== FILE: model.dfy ===
/** The domain shapes of internal/model/model.go. */
module Model {
  import opened Calendar

  /** Go's `UserState`, an int; the dialog states are the iota constants 1, 2, 3. */
  type UserState = int

  const StateAwaitingNewCategoryName: UserState := 1
  const StateAwaitingRenameCategory: UserState := 2
  const StateAwaitingPeriod: UserState := 3

  /** The numeric transaction-type codes (uint8 in Go). */
  const TransactionTypeIncome: int := 1
  const TransactionTypeExpense: int := 2

  /** The tags the storage layer and the statistics query actually compare against. */
  const IncomeTag: string := "income"
  const ExpenseTag: string := "expense"

  /** A user record; `createdAt` is an instant on the `Calendar` time line. */
  datatype User = User(username: string, chatId: int, language: string, createdAt: int)

  /**
   * A pending dialog. Besides the state only `categoryId` is ever set; the
   * staged amount and dates are declared but never written by the handlers.
   */
  datatype UserSession = UserSession(
    state: UserState,
    categoryId: int,
    transactionAmount: real,
    startDate: int,
    endDate: int)

  /** The zero `User` a failed or empty lookup yields. */
  const EmptyUser: User := User("", 0, "", ZeroTime)

  /** `User.IsEmpty`: no chat id and the zero creation time. */
  predicate IsEmpty(u: User)
  {
    u.chatId == 0 && u.createdAt == ZeroTime
  }

  /** `&model.UserSession{State: s}` or with a category id: every other field keeps Go's zero value. */
  function NewSession(state: UserState, categoryId: int): (s: UserSession)
    ensures s.state == state && s.categoryId == categoryId
    ensures s.transactionAmount == 0.0 && s.startDate == ZeroTime && s.endDate == ZeroTime
  {
    UserSession(state, categoryId, 0.0, ZeroTime, ZeroTime)
  }

  /** The dialog states are distinct and none is the zero state of a fresh `UserState`. */
  lemma StatesDistinct()
    ensures StateAwaitingNewCategoryName != StateAwaitingRenameCategory
    ensures StateAwaitingRenameCategory != StateAwaitingPeriod
    ensures StateAwaitingNewCategoryName != StateAwaitingPeriod
    ensures 0 !in {StateAwaitingNewCategoryName, StateAwaitingRenameCategory, StateAwaitingPeriod}
    ensures TransactionTypeIncome != TransactionTypeExpense
  {
  }

  /** Emptiness looks only at the chat id and the creation time. */
  lemma IsEmptyIgnoresProfile(u: User, username: string, language: string)
    ensures IsEmpty(u) == IsEmpty(u.(username := username, language := language))
    ensures IsEmpty(EmptyUser)
    ensures u.chatId != 0 ==> !IsEmpty(u)
  {
  }
}

=== FILE: numbers.dfy ===
/**
 * Decimal integer text as `strconv.Itoa` writes it and `strconv.ParseInt(s, 10, 64)`
 * reads it (util.go's `parseCategoryId` and the transaction callback use the latter).
 */
module Numbers {
  import opened Wrappers

  const MaxUint64: int := 0xFFFF_FFFF_FFFF_FFFF
  const MaxInt64: int := 0x7FFF_FFFF_FFFF_FFFF
  const MinInt64: int := -0x8000_0000_0000_0000

  predicate IsInt64(n: int) { MinInt64 <= n <= MaxInt64 }

  predicate IsDigit(c: char) { '0' <= c <= '9' }

  predicate AllDigits(s: string) { forall i :: 0 <= i < |s| ==> IsDigit(s[i]) }

  function DigitValue(c: char): nat
    requires IsDigit(c)
  {
    c as int - '0' as int
  }

  function DigitChar(d: nat): (c: char)
    requires d < 10
    ensures IsDigit(c) && DigitValue(c) == d
  {
    ('0' as int + d) as char
  }

  /** The value of a string of decimal digits, most significant first. */
  function DecimalValue(s: string): nat
    requires AllDigits(s)
    decreases |s|
  {
    if |s| == 0 then 0 else 10 * DecimalValue(s[..|s| - 1]) + DigitValue(s[|s| - 1])
  }

  /** A longer prefix of a digit string never has a smaller value. */
  lemma {:induction false} DecimalPrefixLe(s: string, j: nat)
    requires AllDigits(s) && j <= |s|
    ensures DecimalValue(s[..j]) <= DecimalValue(s)
    decreases |s| - j
  {
    if j < |s| {
      var t := s[..j + 1];
      assert t[..|t| - 1] == s[..j];
      DecimalPrefixLe(s, j + 1);
    } else {
      assert s[..j] == s;
    }
  }

  /** The shortest decimal digits of `n`. */
  function NatDigits(n: nat): (s: string)
    ensures |s| >= 1 && AllDigits(s) && DecimalValue(s) == n
    ensures s[0] != '0' || n == 0
  {
    if n < 10 then [DigitChar(n)]
    else
      var p := NatDigits(n / 10);
      var s := p + [DigitChar(n % 10)];
      assert s[..|s| - 1] == p;
      s
  }

  /** strconv.Itoa. */
  function Itoa(n: int): (s: string)
    ensures |s| >= 1
    ensures n >= 0 ==> IsDigit(s[0])
    ensures n < 0 ==> s[0] == '-'
    ensures forall i :: 0 <= i < |s| ==> IsDigit(s[i]) || s[i] == '-'
  {
    if n < 0 then "-" + NatDigits(-n) else NatDigits(n)
  }

  /**
   * strconv.ParseInt(s, 10, 64): an optional `+` or `-`, then one or more
   * decimal digits (no underscores, no base prefix), whose value must lie in
   * the int64 range. Every other input is an error.
   */
  function ParseInt64(s: string): (r: Option<int>)
    ensures r.Some? ==> IsInt64(r.value)
  {
    if |s| == 0 then None
    else
      var neg := s[0] == '-';
      var body := if s[0] == '+' || s[0] == '-' then s[1..] else s;
      if |body| == 0 || !AllDigits(body) then None
      else
        var u: int := DecimalValue(body);
        if !neg && u > MaxInt64 then None
        else if neg && u > -MinInt64 then None
        else Some(if neg then -u else u)
  }

  /** Itoa then ParseInt gives back every int64: the payload builders and decoders agree. */
  lemma ParseItoa(n: int)
    requires IsInt64(n)
    ensures ParseInt64(Itoa(n)) == Some(n)
  {
    var s := Itoa(n);
    if n < 0 {
      assert s[1..] == NatDigits(-n);
    }
  }

  /**
   * The unsigned stage of strconv.ParseUint for base 10, with its uint64
   * overflow tests: `n >= cutoff` catches `n * 10` overflowing and the wrapped
   * sum `n1 < n` catches `n * 10 + d` overflowing.
   */
  method ParseUint64(s: string) returns (ok: bool, n: int)
    ensures ok <==> |s| > 0 && AllDigits(s) && DecimalValue(s) <= MaxUint64
    ensures ok ==> n == DecimalValue(s)
  {
    if |s| == 0 {
      return false, 0;
    }
    var cutoff := MaxUint64 / 10 + 1;
    n := 0;
    var i := 0;
    while i < |s|
      invariant 0 <= i <= |s|
      invariant AllDigits(s[..i])
      invariant n == DecimalValue(s[..i]) && n <= MaxUint64
    {
      var c := s[i];
      if !IsDigit(c) {
        return false, 0;
      }
      var d := DigitValue(c);
      var t := s[..i + 1];
      assert t[..|t| - 1] == s[..i];
      assert AllDigits(t);
      if n >= cutoff {
        if AllDigits(s) {
          DecimalPrefixLe(s, i + 1);
        }
        return false, MaxUint64;
      }
      n := n * 10;
      var n1 := (n + d) % 0x1_0000_0000_0000_0000;
      if n1 < n || n1 > MaxUint64 {
        if AllDigits(s) {
          DecimalPrefixLe(s, i + 1);
        }
        return false, MaxUint64;
      }
      n := n1;
      i := i + 1;
    }
    assert s[..i] == s;
    return true, n;
  }

  /** strconv.ParseInt for base 10 and 64 bits: sign handling around ParseUint64, then the int64 cutoff. */
  method ParseInt64Loop(s: string) returns (r: Option<int>)
    ensures r == ParseInt64(s)
  {
    if |s| == 0 {
      return None;
    }
    var neg := false;
    var body := s;
    if s[0] == '+' {
      body := s[1..];
    } else if s[0] == '-' {
      neg := true;
      body := s[1..];
    }
    var ok, un: int := ParseUint64(body);
    if !ok {
      return None;
    }
    var cutoff := 0x8000_0000_0000_0000;
    if !neg && un >= cutoff {
      return None;
    }
    if neg && un > cutoff {
      return None;
    }
    r := Some(if neg then -un else un);
  }
}

=== FILE: payloads.dfy ===
/**
 * Callback payloads of the inline keyboards. A telebot data button built with
 * `markup.Data(text, unique)` carries the callback data "\f" + unique; the
 * bot registers only the catch-all `OnCallback` handler, so the callback
 * comes back with that same data, form feed included. `handleCallback`
 * removes every form feed, cuts the rest at ':' and dispatches on the first
 * piece.
 */
module Payloads {
  import opened Wrappers
  import opened Text
  import opened Numbers
  import opened Model
  import opened Storage

  /** The form feed telebot puts in front of a button's unique part. */
  const FormFeed: char := '\U{C}'

  /** A keyboard button: plain text, or a label with a callback unique part. */
  datatype Button = TextButton(caption: string) | DataButton(caption: string, unique: string)

  type Row = seq<Button>

  const RenameTag: string := "rename"
  const DeleteTag: string := "delete"
  const TransactionTag: string := "transaction"
  const TodayTag: string := "today"
  const PeriodTag: string := "period"

  /** The first pieces `handleCallback` recognises. */
  predicate IsKnownTag(t: string)
  {
    t in {RenameTag, DeleteTag, ExpenseTag, IncomeTag, TransactionTag, TodayTag, PeriodTag}
  }

  /** The callback data of a data button: the form feed and the unique part. */
  function Wire(unique: string): (data: string)
    ensures |data| == |unique| + 1 && data[0] == FormFeed && data[1..] == unique
  {
    [FormFeed] + unique
  }

  /** `"rename:" + strconv.Itoa(id)`, the unique part of a rename button. */
  function RenameUnique(id: int): string
  {
    RenameTag + ":" + Itoa(id)
  }

  /** `strconv.Itoa(code) + ":" + text`, the amount buttons as written (codes 1 and 2). */
  function AmountUnique(code: int, text: string): string
  {
    Itoa(code) + ":" + text
  }

  /** The amount buttons as `handleCallback` expects them: the type tag, ':', the amount text. */
  function IntendedAmountUnique(tag: string, text: string): string
  {
    tag + ":" + text
  }

  /** `"transaction:" + id + ":" + c.Data`: a category of the picker, carrying the pressed button's data. */
  function TransactionUnique(id: int, data: string): string
  {
    TransactionTag + ":" + Itoa(id) + ":" + data
  }

  /** `strings.Split(strings.ReplaceAll(data, "\f", ""), ":")` */
  function Segments(data: string): (parts: seq<string>)
    ensures |parts| >= 1
    ensures forall i :: 0 <= i < |parts| ==> FormFeed !in parts[i] && ':' !in parts[i]
  {
    SplitAbsent(Remove(data, FormFeed), ':', FormFeed);
    Split(Remove(data, FormFeed), ':')
  }

  /** What `handleCallback` does with a callback, decided from its data alone. */
  datatype Action =
    | RenameAction(arg: string)
    | DeleteAction(arg: string)
    | PickCategory
    | TransactionAction
    | TodayAction
    | PeriodAction
    | Unrecognised
    | IndexOutOfRange

  /**
   * The switch of `handleCallback`. Rename and delete read `prefixes[1]`,
   * which does not exist when the data holds no ':' and makes Go panic. The
   * `len(prefixes) == 0` guard can never fire: a split has at least one piece.
   */
  function Classify(data: string): (a: Action)
    ensures a.Unrecognised? <==> !IsKnownTag(Segments(data)[0])
    ensures a.IndexOutOfRange? <==> Segments(data)[0] in {RenameTag, DeleteTag} && |Segments(data)| < 2
    ensures a.RenameAction? || a.DeleteAction? ==> |Segments(data)| >= 2 && a.arg == Segments(data)[1]
    ensures a.RenameAction? <==> Segments(data)[0] == RenameTag && |Segments(data)| >= 2
    ensures a.DeleteAction? <==> Segments(data)[0] == DeleteTag && |Segments(data)| >= 2
    ensures a.PickCategory? <==> Segments(data)[0] in {IncomeTag, ExpenseTag}
    ensures a.TransactionAction? <==> Segments(data)[0] == TransactionTag
    ensures a.TodayAction? <==> Segments(data)[0] == TodayTag
    ensures a.PeriodAction? <==> Segments(data)[0] == PeriodTag
  {
    var prefixes := Segments(data);
    var tag := prefixes[0];
    if tag == RenameTag then
      (if |prefixes| < 2 then IndexOutOfRange else RenameAction(prefixes[1]))
    else if tag == DeleteTag then
      (if |prefixes| < 2 then IndexOutOfRange else DeleteAction(prefixes[1]))
    else if tag == ExpenseTag || tag == IncomeTag then PickCategory
    else if tag == TransactionTag then TransactionAction
    else if tag == TodayTag then TodayAction
    else if tag == PeriodTag then PeriodAction
    else Unrecognised
  }

  /** The outcome of reading a transaction callback. */
  datatype TransactionFields =
    | Fields(categoryId: int, categoryType: string, amountText: string)
    | BadCategoryId
    | BadAmount
    | Truncated

  /**
   * `handleTransactionCallback`: form feeds removed, surrounding white space
   * trimmed, cut at ':'; piece 1 is the category id (ParseInt, base 10, 64
   * bits), piece 2 the transaction type, piece 3 the amount text, which
   * `strconv.ParseFloat` (`isFloat`) must accept. A missing piece 1 or 3 is
   * an index out of range (`Truncated`). Piece 1 is read, and its error
   * returned, before piece 3 is touched: with two or three pieces a bad id
   * is an error reply, not a panic.
   */
  function DecodeTransaction(data: string, isFloat: string -> bool): (f: TransactionFields)
    ensures var p := Split(TrimSpace(Remove(data, FormFeed)), ':');
      && (f.Truncated? <==> |p| < 2 || (ParseInt64(p[1]).Some? && |p| < 4))
      && (f.BadCategoryId? <==> |p| >= 2 && ParseInt64(p[1]).None?)
      && (f.BadAmount? <==> |p| >= 4 && ParseInt64(p[1]).Some? && !isFloat(p[3]))
      && (f.Fields? ==> |p| >= 4 && f.categoryId == ParseInt64(p[1]).value && f.categoryType == p[2] && f.amountText == p[3])
    ensures f.Fields? ==> IsInt64(f.categoryId) && isFloat(f.amountText)
    ensures f.Fields? ==> ':' !in f.categoryType && ':' !in f.amountText && FormFeed !in f.amountText
  {
    var prefixes := Split(TrimSpace(Remove(data, FormFeed)), ':');
    if |prefixes| < 2 then Truncated
    else
      var id := ParseInt64(prefixes[1]);
      if id.None? then BadCategoryId
      else if |prefixes| < 4 then Truncated
      else if !isFloat(prefixes[3]) then BadAmount
      else
        assert FormFeed !in prefixes[3] by {
          TrimSpaceNoFormFeed(Remove(data, FormFeed));
          SplitAbsent(TrimSpace(Remove(data, FormFeed)), ':', FormFeed);
        }
        Fields(id.value, prefixes[2], prefixes[3])
  }

  /** Trimming removes characters and never adds one. */
  lemma TrimSpaceNoFormFeed(s: string)
    requires FormFeed !in s
    ensures FormFeed !in TrimSpace(s)
  {
    var t := TrimLeft(s);
    assert FormFeed !in t by {
      assert forall k :: 0 <= k < |t| ==> t[k] == s[|s| - |t| + k];
    }
    var r := TrimRight(t);
    assert forall k :: 0 <= k < |r| ==> r[k] == t[k];
  }

  /** Text `strconv.ParseFloat` may accept: non-empty, no ':' and no white space. */
  predicate FloatText(s: string)
  {
    |s| > 0 && forall i :: 0 <= i < |s| ==> s[i] != ':' && !IsSpace(s[i])
  }

  /** The float syntax admits neither ':' nor white space (sign, digits, '.', exponent, inf, nan, hex). */
  ghost predicate FloatSyntax(isFloat: string -> bool)
  {
    forall s :: isFloat(s) ==> FloatText(s)
  }

  lemma ItoaNoSeparators(n: int)
    ensures ':' !in Itoa(n) && FormFeed !in Itoa(n)
    ensures forall i :: 0 <= i < |Itoa(n)| ==> !IsSpace(Itoa(n)[i])
  {
    var s := Itoa(n);
    assert forall i :: 0 <= i < |s| ==> IsDigit(s[i]) || s[i] == '-';
  }

  /** A rename button's callback comes back as a rename of the same category. */
  lemma RenameRoundTrip(id: int)
    requires IsInt64(id)
    ensures var a := Classify(Wire(RenameUnique(id)));
      a.RenameAction? && ParseInt64(a.arg) == Some(id)
  {
    RenameSegments(id);
    ParseItoa(id);
  }

  /** A rename button's data is cut into the tag and the id's digits. */
  lemma RenameSegments(id: int)
    ensures Segments(Wire(RenameUnique(id))) == [RenameTag, Itoa(id)]
  {
    var digits := Itoa(id);
    ItoaNoSeparators(id);
    SegmentsOf(RenameTag, digits);
    SplitNoSep(digits, ':');
  }

  /** The pieces after the data's form feeds are dropped and it is cut at ':'. */
  lemma SegmentsOf(tag: string, rest: string)
    requires ':' !in tag && FormFeed !in tag
    ensures Segments(Wire(tag + ":" + rest)) == [tag] + Split(Remove(rest, FormFeed), ':')
  {
    RemoveConcat([FormFeed], tag + ":" + rest, FormFeed);
    RemoveConcat(tag + ":", rest, FormFeed);
    RemoveConcat(tag, ":", FormFeed);
    assert Remove([FormFeed], FormFeed) == [];
    assert Remove(":", FormFeed) == ":";
    assert [] + (tag + ":" + Remove(rest, FormFeed)) == tag + [':'] + Remove(rest, FormFeed);
    assert Wire(tag + ":" + rest) == [FormFeed] + (tag + ":" + rest);
    SplitPrefix(tag, ':', Remove(rest, FormFeed));
  }

  /**
   * The amount buttons as written are never understood: their data starts
   * with "1" or "2", which is no tag `handleCallback` knows, so pressing
   * either one only gets the "command not recognised" reply.
   */
  lemma AmountButtonsUnrecognised(text: string)
    ensures Classify(Wire(AmountUnique(TransactionTypeIncome, text))).Unrecognised?
    ensures Classify(Wire(AmountUnique(TransactionTypeExpense, text))).Unrecognised?
  {
    assert Itoa(TransactionTypeIncome) == "1" && Itoa(TransactionTypeExpense) == "2";
    SegmentsOf("1", text);
    SegmentsOf("2", text);
  }

  /** With the type tag in front, both amount buttons open the category picker. */
  lemma IntendedAmountButtonsPick(text: string)
    ensures Classify(Wire(IntendedAmountUnique(IncomeTag, text))).PickCategory?
    ensures Classify(Wire(IntendedAmountUnique(ExpenseTag, text))).PickCategory?
  {
    SegmentsOf(IncomeTag, text);
    SegmentsOf(ExpenseTag, text);
  }

  /** The pieces of a transaction callback once its form feeds are gone. */
  function CleanTransaction(digits: string, tag: string, text: string): string
  {
    TransactionTag + ":" + digits + ":" + tag + ":" + text
  }

  /** Removing the form feeds of a data button's data leaves those of its unique part removed. */
  lemma RemoveWire(u: string)
    ensures Remove(Wire(u), FormFeed) == Remove(u, FormFeed)
  {
    assert Wire(u)[1..] == u;
  }

  /** A form-feed-free front part is kept as it is. */
  lemma RemoveAfter(a: string, b: string)
    requires FormFeed !in a
    ensures Remove(a + b, FormFeed) == a + Remove(b, FormFeed)
  {
    RemoveConcat(a, b, FormFeed);
  }

  /** The form feeds of the picker's data and of the nested amount data both disappear. */
  lemma TransactionWireClean(id: int, tag: string, text: string)
    requires FormFeed !in tag && FormFeed !in text
    ensures Remove(Wire(TransactionUnique(id, Wire(IntendedAmountUnique(tag, text)))), FormFeed)
      == CleanTransaction(Itoa(id), tag, text)
  {
    var digits := Itoa(id);
    ItoaNoSeparators(id);
    var head := TransactionTag + ":" + digits + ":";
    var tail := tag + ":" + text;
    assert FormFeed !in head by {
      assert FormFeed !in TransactionTag && FormFeed !in ":";
    }
    assert FormFeed !in tail;
    calc {
      Remove(Wire(TransactionUnique(id, Wire(IntendedAmountUnique(tag, text)))), FormFeed);
      { assert TransactionUnique(id, Wire(IntendedAmountUnique(tag, text))) == head + Wire(tail); }
      Remove(Wire(head + Wire(tail)), FormFeed);
      { RemoveWire(head + Wire(tail)); }
      Remove(head + Wire(tail), FormFeed);
      { RemoveAfter(head, Wire(tail)); }
      head + Remove(Wire(tail), FormFeed);
      { RemoveWire(tail); }
      head + tail;
      CleanTransaction(digits, tag, text);
    }
  }

  /** The clean data cuts into the tag, the id digits, the type tag and the amount. */
  lemma CleanTransactionSplit(digits: string, tag: string, text: string)
    requires ':' !in digits && ':' !in tag && ':' !in text
    ensures Split(CleanTransaction(digits, tag, text), ':') == [TransactionTag, digits, tag, text]
  {
    assert CleanTransaction(digits, tag, text) == TransactionTag + [':'] + (digits + [':'] + (tag + [':'] + text));
    SplitPrefix(TransactionTag, ':', digits + [':'] + (tag + [':'] + text));
    SplitPrefix(digits, ':', tag + [':'] + text);
    SplitPrefix(tag, ':', text);
    SplitNoSep(text, ':');
  }

  /** Clean transaction data has no white space to trim at either end. */
  lemma CleanTransactionTrimmed(digits: string, tag: string, text: string)
    requires |text| > 0 && !IsSpace(text[|text| - 1])
    ensures TrimSpace(CleanTransaction(digits, tag, text)) == CleanTransaction(digits, tag, text)
  {
    var clean := CleanTransaction(digits, tag, text);
    assert clean[0] == 't';
    assert clean[|clean| - 1] == text[|text| - 1];
    TrimSpaceNoop(clean);
  }

  /** Data whose form-feed-free form is clean transaction data is dispatched and decoded as such. */
  lemma DecodeClean(data: string, id: int, tag: string, text: string, isFloat: string -> bool)
    requires ':' !in Itoa(id) && ':' !in tag && ':' !in text && IsInt64(id)
    requires Remove(data, FormFeed) == CleanTransaction(Itoa(id), tag, text)
    requires TrimSpace(CleanTransaction(Itoa(id), tag, text)) == CleanTransaction(Itoa(id), tag, text)
    requires isFloat(text)
    ensures Classify(data).TransactionAction?
    ensures DecodeTransaction(data, isFloat) == Fields(id, tag, text)
  {
    CleanTransactionSplit(Itoa(id), tag, text);
    assert Segments(data) == [TransactionTag, Itoa(id), tag, text];
    ParseItoa(id);
  }

  /**
   * The whole transaction flow through the corrected amount buttons: the
   * category button built from the pressed amount button's data is
   * dispatched as a transaction, and decoding gives back the category id, the
   * type tag and the amount text the user typed.
   */
  lemma TransactionRoundTrip(id: int, tag: string, text: string, isFloat: string -> bool)
    requires IsInt64(id) && tag in {IncomeTag, ExpenseTag}
    requires FloatSyntax(isFloat) && isFloat(text)
    ensures var data := Wire(TransactionUnique(id, Wire(IntendedAmountUnique(tag, text))));
      Classify(data).TransactionAction? && DecodeTransaction(data, isFloat) == Fields(id, tag, text)
  {
    ItoaNoSeparators(id);
    assert FloatText(text);
    assert ':' !in text && FormFeed !in text && !IsSpace(text[|text| - 1]) by {
      assert forall i :: 0 <= i < |text| ==> text[i] != ':' && !IsSpace(text[i]);
    }
    assert ':' !in tag && FormFeed !in tag;
    TransactionWireClean(id, tag, text);
    CleanTransactionTrimmed(Itoa(id), tag, text);
    DecodeClean(Wire(TransactionUnique(id, Wire(IntendedAmountUnique(tag, text)))), id, tag, text, isFloat);
  }

  /** The rows of a keyboard, read left to right and top to bottom. */
  function Flatten(rows: seq<Row>): (xs: seq<Button>)
  {
    if |rows| == 0 then [] else rows[0] + Flatten(rows[1..])
  }

  lemma {:induction false} FlattenConcat(a: seq<Row>, b: seq<Row>)
    ensures Flatten(a + b) == Flatten(a) + Flatten(b)
  {
    if |a| > 0 {
      assert (a + b)[1..] == a[1..] + b;
      FlattenConcat(a[1..], b);
    } else {
      assert a + b == b;
    }
  }

  /** Buttons laid out three to a row, the last row taking what is left. */
  function Chunks(xs: seq<Button>): seq<Row>
    decreases |xs|
  {
    if |xs| == 0 then []
    else if |xs| <= 3 then [xs]
    else [xs[..3]] + Chunks(xs[3..])
  }

  /**
   * The layout keeps every button, in order, in ceil(n/3) rows of one to
   * three buttons where only the last row may be short.
   */
  lemma {:induction false} ChunksShape(xs: seq<Button>)
    ensures Flatten(Chunks(xs)) == xs
    ensures |Chunks(xs)| == (|xs| + 2) / 3
    ensures forall i :: 0 <= i < |Chunks(xs)| ==> 1 <= |Chunks(xs)[i]| <= 3
    ensures forall i :: 0 <= i < |Chunks(xs)| - 1 ==> |Chunks(xs)[i]| == 3
    decreases |xs|
  {
    if |xs| > 3 {
      var rest := Chunks(xs[3..]);
      ChunksShape(xs[3..]);
      assert Chunks(xs) == [xs[..3]] + rest;
      assert ([xs[..3]] + rest)[1..] == rest;
      assert xs[..3] + xs[3..] == xs;
    }
  }

  /** The keyboard rows of a button list. */
  function ChunkRows(xs: seq<Button>): (rows: seq<Row>)
    ensures Flatten(rows) == xs
    ensures |rows| == (|xs| + 2) / 3
    ensures forall i :: 0 <= i < |rows| ==> 1 <= |rows[i]| <= 3
    ensures forall i :: 0 <= i < |rows| - 1 ==> |rows[i]| == 3
  {
    ChunksShape(xs);
    Chunks(xs)
  }

  /** Filling whole rows first: the chunks of a multiple of three, then of the rest. */
  lemma {:induction false} ChunksAppend(a: seq<Button>, b: seq<Button>)
    requires |a| % 3 == 0
    ensures Chunks(a + b) == Chunks(a) + Chunks(b)
    decreases |a|
  {
    if |a| == 0 {
      assert a + b == b;
    } else {
      assert (a + b)[..3] == a[..3] && (a + b)[3..] == a[3..] + b;
      ChunksAppend(a[3..], b);
      ChunksFirst(a);
      ChunksFirst(a + b);
    }
  }

  /** Three or more buttons: a full first row, then the rest. */
  lemma ChunksFirst(xs: seq<Button>)
    requires |xs| >= 3
    ensures Chunks(xs) == [xs[..3]] + Chunks(xs[3..])
  {
    if |xs| == 3 {
      assert xs[..3] == xs && xs[3..] == [];
    }
  }

  /** Closing a row of one to three buttons that starts on a row boundary. */
  lemma CloseRow(btns: seq<Button>, start: int, end: int)
    requires 0 <= start < end <= |btns| && end - start <= 3 && start % 3 == 0
    ensures Chunks(btns[..end]) == Chunks(btns[..start]) + [btns[start..end]]
  {
    assert btns[..end] == btns[..start] + btns[start..end];
    ChunksAppend(btns[..start], btns[start..end]);
  }

  /** A data button per category, carrying the picked category and the amount button's data. */
  function PickerButtons(cats: seq<CategoryRow>, data: string): (btns: seq<Button>)
    ensures |btns| == |cats|
    ensures forall i :: 0 <= i < |cats| ==> btns[i] == DataButton(cats[i].name, TransactionUnique(cats[i].id, data))
  {
    seq(|cats|, i requires 0 <= i < |cats| => DataButton(cats[i].name, TransactionUnique(cats[i].id, data)))
  }

  /**
   * What a picker button means: pressed after a tagged amount button, its
   * data is a transaction of that category, with the tag and amount text of
   * the amount button it carries.
   */
  lemma PickerButtonMeaning(cats: seq<CategoryRow>, i: int, tag: string, text: string, isFloat: string -> bool)
    requires 0 <= i < |cats| && IsInt64(cats[i].id) && tag in {IncomeTag, ExpenseTag}
    requires FloatSyntax(isFloat) && isFloat(text)
    ensures var b := PickerButtons(cats, Wire(IntendedAmountUnique(tag, text)))[i];
      && b.caption == cats[i].name
      && Classify(Wire(b.unique)).TransactionAction?
      && DecodeTransaction(Wire(b.unique), isFloat) == Fields(cats[i].id, tag, text)
  {
    TransactionRoundTrip(cats[i].id, tag, text, isFloat);
  }

  /**
   * One turn of the picker loop: the button with index `i` joins the row
   * begun at `start`; the row closes after a third button or after the last
   * button, and the next row then begins on a multiple of three.
   */
  lemma RowStep(btns: seq<Button>, start: int, i: int)
    requires 0 <= start <= i < |btns| && i - start < 3 && start % 3 == 0
    ensures (i + 1) % 3 == 0 || i == |btns| - 1 ==>
      && Chunks(btns[..i + 1]) == Chunks(btns[..start]) + [btns[start..i + 1]]
      && (i + 1 < |btns| ==> (i + 1) % 3 == 0)
    ensures !((i + 1) % 3 == 0 || i == |btns| - 1) ==> i + 1 - start < 3
  {
    ThirdButton(start, i + 1);
    if (i + 1) % 3 == 0 || i == |btns| - 1 {
      CloseRow(btns, start, i + 1);
    }
  }

  /** Counting from a row start at a multiple of three, the row closes at the next multiple. */
  lemma ThirdButton(start: int, j: int)
    requires start >= 0 && start % 3 == 0 && start < j <= start + 3
    ensures j % 3 == 0 <==> j == start + 3
  {
    var k := start / 3;
    assert start == 3 * k;
    assert j == 3 * k + (j - start);
  }

  /**
   * The loop of `handleTransactionCategories`: append the button to the
   * current row and close the row after every third button and after the last.
   */
  method CategoryRows(btns: seq<Button>) returns (allRows: seq<Row>)
    ensures allRows == ChunkRows(btns)
    ensures Flatten(allRows) == btns
  {
    var row: Row := [];
    allRows := [];
    var i := 0;
    ghost var start := 0;
    while i < |btns|
      invariant 0 <= start <= i <= |btns| && i - start < 3
      invariant i < |btns| ==> start % 3 == 0
      invariant i == |btns| ==> start == i
      invariant row == btns[start..i]
      invariant allRows == Chunks(btns[..start])
    {
      row := row + [btns[i]];
      assert row == btns[start..i + 1];
      RowStep(btns, start, i);
      if (i + 1) % 3 == 0 || i == |btns| - 1 {
        allRows := allRows + [row];
        row := [];
        start := i + 1;
      }
      i := i + 1;
    }
    assert btns[..i] == btns;
  }
}

=== FILE: registration.dfy ===
/**
 * internal/bot/handler_registration.go: which handler an update reaches,
 * the `/add_category` handler written inline there, and the rule that every
 * handler's error is logged and swallowed. A whole run is a sequence of
 * updates processed one after another on the shared state.
 */
module Registration {
  import Text
  import opened Wrappers
  import opened Numbers
  import opened Calendar
  import opened Model
  import opened Storage
  import opened Payloads
  import opened Dialog
  import opened Messages
  import opened Callbacks

  /** The commands the bot registers. */
  datatype Command = StartCommand | HelpCommand | AddCategoryCommand | ShowCategoriesCommand | StatsCommand

  /** One update: a registered command, any other text, or a button press. */
  datatype Update =
    | CommandUpdate(cmd: Command, m: Message)
    | TextUpdate(m: Message)
    | CallbackUpdate(c: Callback)

  function SenderOf(u: Update): int
  {
    match u
    case CommandUpdate(_, m) => m.senderId
    case TextUpdate(m) => m.senderId
    case CallbackUpdate(c) => c.senderId
  }

  /** What an update leaves behind: the new state, the delivered replies, and whether its goroutine panicked. */
  datatype Outcome = Outcome(world: World, replies: seq<Reply>, panicked: bool)

  const NewCategoryPromptText: string := "Введите название новой категории:"

  /** The `/add_category` handler: open the new-category dialog, replacing any other, and ask for the name. */
  function HandleAddCategory(w: World, m: Message, env: Env): (p: Progress)
    ensures p.world == w.(sessions := w.sessions[m.senderId := NewSession(StateAwaitingNewCategoryName, 0)])
    ensures !p.panicked && (!SendFails(env, 0) <==> p.sent == [Plain(NewCategoryPromptText)])
  {
    Say(SetSession(Begin(w), m.senderId, NewSession(StateAwaitingNewCategoryName, 0)), Plain(NewCategoryPromptText), env)
  }

  /** A handler's error is only logged: all that remains of an update is its effect. */
  function Finish(p: Progress): Outcome
  {
    Outcome(p.world, p.sent, p.panicked)
  }

  /**
   * One update through the registered handlers. Only the sender's session
   * can change; commands other than `/add_category` leave every session as
   * it was; a panicking update has sent nothing and left the sessions as
   * they were; the table invariants are kept.
   */
  function Step(w: World, u: Update, env: Env, pf: Platform): (o: Outcome)
    ensures forall id :: id != SenderOf(u) ==>
      (id in o.world.sessions <==> id in w.sessions) && (id in w.sessions ==> o.world.sessions[id] == w.sessions[id])
    ensures u.CommandUpdate? && u.cmd != AddCategoryCommand ==> o.world.sessions == w.sessions
    ensures o.panicked ==> o.replies == [] && o.world.sessions == w.sessions
    ensures Valid(w.repo) ==> Valid(o.world.repo)
  {
    match u
    case CommandUpdate(StartCommand, m) => Finish(HandleStart(w, m, env))
    case CommandUpdate(HelpCommand, m) => Finish(HandleHelp(w, m, env))
    case CommandUpdate(AddCategoryCommand, m) => Finish(HandleAddCategory(w, m, env))
    case CommandUpdate(ShowCategoriesCommand, m) => Finish(HandleShowCategories(w, m, env))
    case CommandUpdate(StatsCommand, m) => Finish(HandleStatsButtons(w, m, env))
    case TextUpdate(m) => Finish(HandleOnText(w, m, env, pf))
    case CallbackUpdate(c) => Finish(HandleCallback(w, c, env, pf))
  }

  /** The updates that panic: `/start` with a failing statement, and callbacks that index past their pieces. */
  predicate PanicsOn(w: World, u: Update, env: Env, pf: Platform)
  {
    match u
    case CommandUpdate(StartCommand, m) =>
      Fails(env, LookupUser)
      || (IsEmpty(GetUserByChatID(w.repo, m.chatId)) && (Fails(env, InsertUser) || Fails(env, InsertCategory)))
    case CommandUpdate(_, _) => false
    case TextUpdate(_) => false
    case CallbackUpdate(c) =>
      Classify(c.data).IndexOutOfRange?
      || (Classify(c.data).TransactionAction? && DecodeTransaction(c.data, pf.isFloat).Truncated?)
  }

  /** Exactly those updates panic; every other failure is swallowed by its handler. */
  lemma PanicCharacterised(w: World, u: Update, env: Env, pf: Platform)
    ensures Step(w, u, env, pf).panicked <==> PanicsOn(w, u, env, pf)
  {
  }

  /**
   * Whatever the state, the update cannot panic: `/start` on an update where
   * none of its three statements fails, every other command and text, and
   * callbacks whose data has the pieces their handler indexes.
   */
  predicate PanicFree(u: Update, env: Env, pf: Platform)
  {
    match u
    case CommandUpdate(StartCommand, _) => !Fails(env, LookupUser) && !Fails(env, InsertUser) && !Fails(env, InsertCategory)
    case CommandUpdate(_, _) => true
    case TextUpdate(_) => true
    case CallbackUpdate(c) => !PanicsOn(EmptyWorld, u, env, pf)
  }

  const EmptyWorld: World := World(map[], EmptyRepo)

  lemma PanicFreeAnyWorld(w: World, u: Update, env: Env, pf: Platform)
    ensures PanicFree(u, env, pf) ==> !Step(w, u, env, pf).panicked
  {
    PanicCharacterised(w, u, env, pf);
  }

  /** The state after a sequence of updates and every reply delivered; `crashed` when one of them panicked. */
  datatype Trace = Trace(world: World, replies: seq<Reply>, crashed: bool)

  /**
   * The update loop over any handler function: updates in order, each with
   * its own environment; errors never stop it, a panic ends the process.
   */
  function Loop(step: (World, Update, Env) -> Outcome, w: World, us: seq<Update>, envs: seq<Env>): Trace
    requires |envs| == |us|
    decreases |us|
  {
    if |us| == 0 then Trace(w, [], false)
    else
      var o := step(w, us[0], envs[0]);
      if o.panicked then Trace(o.world, o.replies, true)
      else
        var t := Loop(step, o.world, us[1..], envs[1..]);
        Trace(t.world, o.replies + t.replies, t.crashed)
  }

  /** The registered handlers as the loop's step function. */
  function Handlers(pf: Platform): (World, Update, Env) -> Outcome
  {
    (w, u, env) => Step(w, u, env, pf)
  }

  /**
   * The bot's run: telebot runs each handler in a goroutine and the bot
   * installs no recovering middleware, so a panic ends the process and no
   * later update is processed. The table invariants hold throughout, and
   * only an update that is not panic-free can end the run.
   */
  function Run(w: World, us: seq<Update>, envs: seq<Env>, pf: Platform): (t: Trace)
    requires |envs| == |us|
    ensures Valid(w.repo) ==> Valid(t.world.repo)
    ensures (forall i :: 0 <= i < |us| ==> PanicFree(us[i], envs[i], pf)) ==> !t.crashed
    ensures t.crashed ==> exists i :: 0 <= i < |us| && !PanicFree(us[i], envs[i], pf)
  {
    var step := Handlers(pf);
    HandlersFacts(pf);
    LoopKeepsValid(step, w, us, envs);
    LoopCrash(step, w, us, envs);
    assert forall i :: 0 <= i < |us| && (exists w' :: step(w', us[i], envs[i]).panicked) ==> !PanicFree(us[i], envs[i], pf);
    Loop(step, w, us, envs)
  }

  /** What the step function inherits from `Step`. */
  lemma HandlersFacts(pf: Platform)
    ensures forall w: World, u, env :: Valid(w.repo) ==> Valid(Handlers(pf)(w, u, env).world.repo)
    ensures forall w, u, env :: PanicFree(u, env, pf) ==> !Handlers(pf)(w, u, env).panicked
  {
    forall w: World, u, env | Valid(w.repo) ensures Valid(Handlers(pf)(w, u, env).world.repo) {
      assert Handlers(pf)(w, u, env) == Step(w, u, env, pf);
    }
    forall w, u, env | PanicFree(u, env, pf) ensures !Handlers(pf)(w, u, env).panicked {
      PanicFreeAnyWorld(w, u, env, pf);
    }
  }

  lemma {:induction false} LoopKeepsValid(step: (World, Update, Env) -> Outcome, w: World, us: seq<Update>, envs: seq<Env>)
    requires |envs| == |us|
    requires forall w': World, u, env :: Valid(w'.repo) ==> Valid(step(w', u, env).world.repo)
    ensures Valid(w.repo) ==> Valid(Loop(step, w, us, envs).world.repo)
    decreases |us|
  {
    if |us| > 0 {
      LoopKeepsValid(step, step(w, us[0], envs[0]).world, us[1..], envs[1..]);
    }
  }

  /** A crash is caused by an update that panics in some state. */
  lemma {:induction false} LoopCrash(step: (World, Update, Env) -> Outcome, w: World, us: seq<Update>, envs: seq<Env>)
    requires |envs| == |us|
    ensures Loop(step, w, us, envs).crashed ==>
      exists i, w' :: 0 <= i < |us| && step(w', us[i], envs[i]).panicked
    decreases |us|
  {
    if |us| > 0 && !step(w, us[0], envs[0]).panicked {
      var w1 := step(w, us[0], envs[0]).world;
      LoopCrash(step, w1, us[1..], envs[1..]);
      if Loop(step, w1, us[1..], envs[1..]).crashed {
        var i, w' :| 0 <= i < |us| - 1 && step(w', us[1..][i], envs[1..][i]).panicked;
        assert step(w', us[i + 1], envs[i + 1]).panicked;
      }
    }
  }

  /**
   * Running two batches one after the other is running them together as long
   * as the first did not crash; a crash in the first ends everything.
   */
  lemma {:induction false} LoopAppend(step: (World, Update, Env) -> Outcome, w: World,
                                      us: seq<Update>, envs: seq<Env>, vs: seq<Update>, fs: seq<Env>)
    requires |envs| == |us| && |fs| == |vs|
    ensures var t := Loop(step, w, us, envs);
      var all := Loop(step, w, us + vs, envs + fs);
      && (!t.crashed ==>
            var t2 := Loop(step, t.world, vs, fs);
            all == Trace(t2.world, t.replies + t2.replies, t2.crashed))
      && (t.crashed ==> all == t)
    decreases |us|
  {
    if |us| == 0 {
      assert us + vs == vs && envs + fs == fs;
    } else {
      assert (us + vs)[0] == us[0] && (envs + fs)[0] == envs[0];
      assert (us + vs)[1..] == us[1..] + vs && (envs + fs)[1..] == envs[1..] + fs;
      var o := step(w, us[0], envs[0]);
      if !o.panicked {
        var rest := Loop(step, o.world, us[1..], envs[1..]);
        LoopAppend(step, o.world, us[1..], envs[1..], vs, fs);
        if !rest.crashed {
          var t2 := Loop(step, rest.world, vs, fs);
          assert o.replies + (rest.replies + t2.replies) == (o.replies + rest.replies) + t2.replies;
        }
      }
    }
  }

  /** The bot's run is compositional: batches of updates may be processed one after another. */
  lemma RunAppend(w: World, us: seq<Update>, envs: seq<Env>, vs: seq<Update>, fs: seq<Env>, pf: Platform)
    requires |envs| == |us| && |fs| == |vs|
    ensures var t := Run(w, us, envs, pf);
      var all := Run(w, us + vs, envs + fs, pf);
      && (!t.crashed ==>
            var t2 := Run(t.world, vs, fs, pf);
            all == Trace(t2.world, t.replies + t2.replies, t2.crashed))
      && (t.crashed ==> all == t)
  {
    LoopAppend(Handlers(pf), w, us, envs, vs, fs);
  }

  // ---------------------------------------------------------------------
  // Free text

  /**
   * Text `strconv.ParseFloat` accepts always gets the type prompt whose two
   * buttons carry "1:" and "2:" in front of the text, whatever dialog the
   * sender is in, and changes nothing: the sessions are not even read.
   */
  lemma AmountTextPrompt(w: World, w': World, m: Message, env: Env, pf: Platform)
    requires pf.isFloat(m.text) && w'.repo == w.repo
    ensures var o := Step(w, TextUpdate(m), env, pf);
      && o.world == w && !o.panicked
      && (!SendFails(env, 0) ==>
            o.replies == [Send(ChooseTypeText,
              [[DataButton("Доход", "1:" + m.text), DataButton("Расход", "2:" + m.text)]], false)])
      && o.replies == Step(w', TextUpdate(m), env, pf).replies
  {
    assert Itoa(TransactionTypeIncome) == "1" && Itoa(TransactionTypeExpense) == "2";
    assert AmountUnique(TransactionTypeIncome, m.text) == "1:" + m.text;
    assert AmountUnique(TransactionTypeExpense, m.text) == "2:" + m.text;
  }

  /** Other text from a sender with no dialog gets the pointer to /help and changes nothing. */
  lemma UnknownTextWithoutDialog(w: World, m: Message, env: Env, pf: Platform)
    requires !pf.isFloat(m.text) && m.senderId !in w.sessions
    ensures var o := Step(w, TextUpdate(m), env, pf);
      o.world == w && !o.panicked && (!SendFails(env, 0) <==> o.replies == [Plain(NotUnderstoodHelpText)])
  {
  }

  /**
   * In the new-category dialog the text becomes a category of the chat
   * (another one with the same name may exist), and the dialog ends after
   * the confirmation even when the insert failed.
   */
  lemma NewCategoryDialog(w: World, m: Message, env: Env, pf: Platform)
    requires !pf.isFloat(m.text) && m.senderId in w.sessions
    requires w.sessions[m.senderId].state == StateAwaitingNewCategoryName
    requires env.failedSend.None?
    ensures var o := Step(w, TextUpdate(m), env, pf);
      && o.world.sessions == w.sessions - {m.senderId}
      && o.world.repo == (if Fails(env, InsertCategory) then w.repo else AddCategory(w.repo, m.text, m.chatId))
      && o.replies[|o.replies| - 1] == Plain("Категория '" + m.text + "' успешно добавлена.")
      && (!Fails(env, InsertCategory) ==>
            GetCategoriesByChatID(o.world.repo, m.chatId)
              == GetCategoriesByChatID(w.repo, m.chatId) + [CategoryRow(w.repo.nextCategoryId, m.text, m.chatId, false)])
  {
    if !Fails(env, InsertCategory) {
      ListAfterAdd(w.repo, m.text, m.chatId);
    }
  }

  /** In the rename dialog the named category is renamed and the dialog ends whatever the database said. */
  lemma RenameDialog(w: World, m: Message, env: Env, pf: Platform)
    requires !pf.isFloat(m.text) && m.senderId in w.sessions
    requires w.sessions[m.senderId].state == StateAwaitingRenameCategory
    requires env.failedSend.None?
    ensures var o := Step(w, TextUpdate(m), env, pf);
      && o.world.sessions == w.sessions - {m.senderId}
      && o.world.repo == (if Fails(env, UpdateCategoryName) then w.repo
                          else RenameCategory(w.repo, w.sessions[m.senderId].categoryId, m.text))
      && o.replies[|o.replies| - 1] == Plain("Категория успешно переименована в '" + m.text + "'")
  {
  }

  /** In the period dialog a text without exactly one '-' gets the format error and the dialog stays open. */
  lemma PeriodWrongShape(w: World, m: Message, env: Env, pf: Platform)
    requires !pf.isFloat(m.text) && m.senderId in w.sessions
    requires w.sessions[m.senderId].state == StateAwaitingPeriod
    requires Text.Count(m.text, '-') != 1
    ensures var o := Step(w, TextUpdate(m), env, pf);
      o.world == w && (env.failedSend.None? ==> o.replies == [Plain(PeriodFormatErrorText)])
  {
  }

  /** A half that is not a date in the layout gets the date error and the dialog stays open. */
  lemma PeriodBadDate(w: World, m: Message, env: Env, pf: Platform)
    requires !pf.isFloat(m.text) && m.senderId in w.sessions
    requires w.sessions[m.senderId].state == StateAwaitingPeriod
    requires Text.Count(m.text, '-') == 1 && ParsePeriod(m.text).None?
    ensures var o := Step(w, TextUpdate(m), env, pf);
      o.world == w && (env.failedSend.None? ==> o.replies == [Plain(DateErrorText)])
  {
  }

  /**
   * Two good dates request the statistics from the first date's midnight up
   * to, but not including, the second date's midnight; the dialog ends only
   * when the report was sent.
   */
  lemma PeriodGood(w: World, first: Date, last: Date, m: Message, env: Env, pf: Platform)
    requires ValidDate(first) && ValidDate(last)
    requires m.text == FormatDate(first) + "-" + FormatDate(last)
    requires !pf.isFloat(m.text) && m.senderId in w.sessions
    requires w.sessions[m.senderId].state == StateAwaitingPeriod
    requires env.failedSend.None?
    ensures var o := Step(w, TextUpdate(m), env, pf);
      && o.world.repo == w.repo
      && o.replies == StatsReply(Begin(w), m.senderId, Midnight(first), Midnight(last), env, pf).sent
      && (o.world.sessions == if Fails(env, QueryStats) then w.sessions else w.sessions - {m.senderId})
  {
    ParsePeriodFormat(first, last);
  }

  // ---------------------------------------------------------------------
  // Commands

  /** `/start` for a known user writes nothing and sends nothing. */
  lemma StartKnownUser(w: World, m: Message, env: Env, pf: Platform)
    requires !Fails(env, LookupUser) && m.chatId in w.repo.users && !IsEmpty(w.repo.users[m.chatId])
    ensures Step(w, CommandUpdate(StartCommand, m), env, pf) == Outcome(w, [], false)
  {
  }

  /** `/start` for a new user inserts the user, then the default category, then welcomes. */
  lemma StartNewUser(w: World, m: Message, env: Env, pf: Platform)
    requires Healthy(env) && m.chatId !in w.repo.users
    ensures var o := Step(w, CommandUpdate(StartCommand, m), env, pf);
      && o.world.repo == AddCategory(AddUser(w.repo, User(m.username, m.chatId, m.language, env.now)), DefaultCategoryName, m.chatId)
      && o.world.sessions == w.sessions
      && o.replies == [Plain(WelcomeText)]
  {
  }

  /** A second `/start` from a chat with a non-zero id changes nothing and is silent. */
  lemma StartTwice(w: World, m: Message, env1: Env, env2: Env, pf: Platform)
    requires Valid(w.repo) && m.chatId != 0 && !Fails(env1, LookupUser) && !Fails(env2, LookupUser)
    requires !Step(w, CommandUpdate(StartCommand, m), env1, pf).panicked
    ensures var w1 := Step(w, CommandUpdate(StartCommand, m), env1, pf).world;
      Step(w1, CommandUpdate(StartCommand, m), env2, pf) == Outcome(w1, [], false)
  {
    var w1 := Step(w, CommandUpdate(StartCommand, m), env1, pf).world;
    assert m.chatId in w1.repo.users;
    assert w1.repo.users[m.chatId].chatId == m.chatId;
  }

  /** `/add_category` replaces the sender's dialog, whatever it was, with a fresh new-category one. */
  lemma AddCategoryResets(w: World, m: Message, env: Env, pf: Platform)
    ensures var o := Step(w, CommandUpdate(AddCategoryCommand, m), env, pf);
      && o.world.repo == w.repo
      && o.world.sessions == w.sessions[m.senderId := NewSession(StateAwaitingNewCategoryName, 0)]
      && o.world.sessions[m.senderId].categoryId == 0
  {
  }

  // ---------------------------------------------------------------------
  // Button presses

  /** A press whose first piece is no known tag gets "not recognised" and changes nothing. */
  lemma UnknownCallback(w: World, c: Callback, env: Env, pf: Platform)
    requires !IsKnownTag(Segments(c.data)[0])
    ensures var o := Step(w, CallbackUpdate(c), env, pf);
      o.world == w && !o.panicked && (!SendFails(env, 0) <==> o.replies == [Plain(NotRecognisedText)])
  {
  }

  /** Pressing either amount button as the bot builds it leads nowhere: "not recognised", nothing changes. */
  lemma AmountButtonPressIgnored(w: World, sender: int, text: string, code: int, env: Env, pf: Platform)
    requires code == TransactionTypeIncome || code == TransactionTypeExpense
    ensures var o := Step(w, CallbackUpdate(Callback(sender, Wire(AmountUnique(code, text)))), env, pf);
      o.world == w && !o.panicked && (!SendFails(env, 0) <==> o.replies == [Plain(NotRecognisedText)])
  {
    AmountButtonsUnrecognised(text);
  }

  /** A rename button opens the rename dialog for exactly its category. */
  lemma RenameButtonOpensDialog(w: World, sender: int, id: int, env: Env, pf: Platform)
    requires IsInt64(id)
    ensures var o := Step(w, CallbackUpdate(Callback(sender, Wire(RenameUnique(id)))), env, pf);
      && o.world.repo == w.repo
      && o.world.sessions == w.sessions[sender := NewSession(StateAwaitingRenameCategory, id)]
  {
    RenameRoundTrip(id);
  }

  /** `delete:` with an id that does not parse leaves the database alone, whatever the database would do. */
  lemma DeleteMalformedId(w: World, c: Callback, env: Env, pf: Platform)
    requires Classify(c.data).DeleteAction? && ParseInt64(Classify(c.data).arg).None?
    ensures Step(w, CallbackUpdate(c), env, pf).world == w
  {
  }

  /** A good `delete:` id soft-deletes the sender's category and says so even after a database error. */
  lemma DeleteReportsDeleted(w: World, c: Callback, env: Env, pf: Platform)
    requires Classify(c.data).DeleteAction? && ParseInt64(Classify(c.data).arg).Some?
    requires env.failedSend.None?
    ensures var o := Step(w, CallbackUpdate(c), env, pf);
      && o.world.sessions == w.sessions
      && o.world.repo == (if Fails(env, SoftDeleteCategory) then w.repo
                          else DeleteCategory(w.repo, c.senderId, ParseInt64(Classify(c.data).arg).value))
      && o.replies[|o.replies| - 1] == Plain(DeletedText)
  {
  }

  /**
   * The category picker lays the sender's live categories out in order,
   * three to a row with only the last row shorter, ceil(n/3) rows in all;
   * with no categories it says so and edits nothing.
   */
  lemma PickerLayout(w: World, c: Callback, env: Env, pf: Platform)
    requires Classify(c.data).PickCategory? && Healthy(env)
    ensures var o := Step(w, CallbackUpdate(c), env, pf);
      var cats := GetCategoriesByChatID(w.repo, c.senderId);
      && o.world == w
      && (|cats| == 0 ==> o.replies == [Plain("Категории отсутствуют.")])
      && (|cats| > 0 ==>
            && |o.replies| == 1 && o.replies[0].Edit? && o.replies[0].text == ChooseCategoryText
            && var rows := o.replies[0].keyboard;
            && Flatten(rows) == PickerButtons(cats, c.data)
            && |rows| == (|cats| + 2) / 3
            && (forall i :: 0 <= i < |rows| ==> 1 <= |rows[i]| <= 3)
            && (forall i :: 0 <= i < |rows| - 1 ==> |rows[i]| == 3))
  {
    PickerReply(w, c, env, pf);
  }

  lemma PickerReply(w: World, c: Callback, env: Env, pf: Platform)
    requires Classify(c.data).PickCategory? && Healthy(env)
    ensures var o := Step(w, CallbackUpdate(c), env, pf);
      var cats := GetCategoriesByChatID(w.repo, c.senderId);
      && o.world == w
      && o.replies == if |cats| == 0 then [Plain("Категории отсутствуют.")]
        else [Edit(ChooseCategoryText, ChunkRows(PickerButtons(cats, c.data)))]
  {
    StepCallback(w, c, env, pf);
  }

  /** A transaction press whose id or amount does not parse is reported and inserts nothing. */
  lemma TransactionBadInput(w: World, c: Callback, env: Env, pf: Platform)
    requires Classify(c.data).TransactionAction?
    requires DecodeTransaction(c.data, pf.isFloat).BadCategoryId? || DecodeTransaction(c.data, pf.isFloat).BadAmount?
    ensures var o := Step(w, CallbackUpdate(c), env, pf);
      o.world == w && !o.panicked && |o.world.repo.transactions| == |w.repo.transactions|
  {
  }

  /**
   * With the corrected amount keyboard, pressing its button `b` (0 for
   * income, 1 for expense) and then a category of the picker records the
   * typed amount under that category and the button's type for the sender,
   * stamped with the current instant.
   */
  lemma IntendedTransactionFlow(w: World, sender: int, id: int, b: int, text: string, env: Env, pf: Platform)
    requires IsInt64(id) && 0 <= b < 2
    requires FloatSyntax(pf.isFloat) && pf.isFloat(text) && Healthy(env)
    ensures var tag := if b == 0 then IncomeTag else ExpenseTag;
      var data := Wire(TransactionUnique(id, Wire(IntendedAmountKeyboard(text)[0][b].unique)));
      var o := Step(w, CallbackUpdate(Callback(sender, data)), env, pf);
      && o.world.sessions == w.sessions
      && o.world.repo == AddTransaction(w.repo, TransactionRow(sender, id, pf.floatValue(text), tag, env.now, false))
      && o.replies == [Plain(TransactionAddedText(text, tag, pf))]
  {
    var tag := if b == 0 then IncomeTag else ExpenseTag;
    assert IntendedAmountKeyboard(text)[0][b].unique == IntendedAmountUnique(tag, text);
    var c := Callback(sender, Wire(TransactionUnique(id, Wire(IntendedAmountUnique(tag, text)))));
    TransactionRoundTrip(id, tag, text, pf.isFloat);
    StepCallback(w, c, env, pf);
  }

  /**
   * `today` asks for the statistics of the UTC day holding the current
   * instant, from its midnight to the next, and changes nothing.
   */
  lemma TodayStats(w: World, c: Callback, env: Env, pf: Platform)
    requires Classify(c.data).TodayAction?
    ensures var o := Step(w, CallbackUpdate(c), env, pf);
      var window := TodayWindow(env.now);
      && window.0 <= env.now < window.1 && window.1 == window.0 + SecondsPerDay
      && o.world == w
      && o.replies == StatsReply(Begin(w), c.senderId, window.0, window.1, env, pf).sent
  {
    TodayCallback(w, c, env, pf);
  }

  lemma TodayCallback(w: World, c: Callback, env: Env, pf: Platform)
    requires Classify(c.data).TodayAction?
    ensures Step(w, CallbackUpdate(c), env, pf) == Finish(HandleToday(w, c, env, pf))
  {
    StepCallback(w, c, env, pf);
  }

  lemma StepCallback(w: World, c: Callback, env: Env, pf: Platform)
    ensures Step(w, CallbackUpdate(c), env, pf) == Finish(HandleCallback(w, c, env, pf))
  {
  }

  /** `period` replaces the sender's dialog with the period dialog. */
  lemma PeriodButtonOpensDialog(w: World, sender: int, env: Env, pf: Platform)
    ensures var o := Step(w, CallbackUpdate(Callback(sender, Wire(PeriodTag))), env, pf);
      && o.world.repo == w.repo
      && o.world.sessions == w.sessions[sender := NewSession(StateAwaitingPeriod, 0)]
  {
    var c := Callback(sender, Wire(PeriodTag));
    TagOnly(PeriodTag);
    assert Classify(c.data).PeriodAction?;
    PeriodCallback(w, c, env, pf);
  }

  lemma PeriodCallback(w: World, c: Callback, env: Env, pf: Platform)
    requires Classify(c.data).PeriodAction?
    ensures Step(w, CallbackUpdate(c), env, pf) == Finish(HandlePeriodButton(w, c, env))
  {
    StepCallback(w, c, env, pf);
  }

  /** A button whose unique part is a bare tag comes back as that one piece. */
  lemma TagOnly(tag: string)
    requires ':' !in tag && FormFeed !in tag
    ensures Segments(Wire(tag)) == [tag]
  {
    assert Wire(tag) == [FormFeed] + tag;
    Text.RemoveConcat([FormFeed], tag, FormFeed);
    assert Text.Remove([FormFeed], FormFeed) == [];
    Text.SplitNoSep(tag, ':');
  }
}

=== FILE: storage.dfy ===
/**
 * internal/storage/storage.go as an in-memory relational state: the users,
 * categories and transactions tables and the effect of each statement on them.
 * Failures of the database are decided by the caller (see `Dialog.Env`);
 * every function here is the effect of a statement that succeeded.
 */
module Storage {
  import opened Wrappers
  import opened Model
  import opened Maps

  datatype CategoryRow = CategoryRow(id: int, name: string, chatId: int, isDeleted: bool)

  datatype TransactionRow = TransactionRow(
    userChat: int,
    categoryId: int,
    amount: real,
    transactionType: string,
    createdAt: int,
    isDeleted: bool)

  /**
   * The three tables. Users are keyed by chat id (the conflict key of the
   * insert); categories and transactions are kept in insertion order;
   * `nextCategoryId` is the serial the next category row receives.
   */
  datatype Repo = Repo(
    users: map<int, User>,
    categories: seq<CategoryRow>,
    transactions: seq<TransactionRow>,
    nextCategoryId: int)

  const EmptyRepo: Repo := Repo(map[], [], [], 1)

  /** Table invariants: users stored under their own chat id, category ids unique and below the serial. */
  ghost predicate Valid(r: Repo)
  {
    && r.nextCategoryId >= 1
    && (forall c :: c in r.users ==> r.users[c].chatId == c)
    && (forall i :: 0 <= i < |r.categories| ==> 1 <= r.categories[i].id < r.nextCategoryId)
    && (forall i, j :: 0 <= i < j < |r.categories| ==> r.categories[i].id != r.categories[j].id)
  }

  lemma EmptyRepoValid()
    ensures Valid(EmptyRepo)
  {
  }

  /** `INSERT INTO users ... ON CONFLICT DO NOTHING`: an existing chat id leaves the table as it was. */
  function AddUser(r: Repo, u: User): (r': Repo)
    ensures u.chatId in r.users ==> r' == r
    ensures r'.users.Keys == r.users.Keys + {u.chatId}
    ensures forall c :: c in r.users ==> r'.users[c] == r.users[c]
    ensures u.chatId !in r.users ==> r'.users[u.chatId] == u
    ensures r'.categories == r.categories && r'.transactions == r.transactions
    ensures r'.nextCategoryId == r.nextCategoryId
    ensures Valid(r) ==> Valid(r')
  {
    if u.chatId in r.users then r else r.(users := r.users[u.chatId := u])
  }

  /** Inserting the same chat twice is the same as inserting it once. */
  lemma AddUserIdempotent(r: Repo, u: User, u': User)
    requires u'.chatId == u.chatId
    ensures AddUser(AddUser(r, u), u') == AddUser(r, u)
  {
  }

  /**
   * The lookup the /start handler calls. It is not defined in storage.go;
   * here it reads the users table, and a missing chat gives the empty user.
   */
  function GetUserByChatID(r: Repo, chat: int): (u: User)
    ensures chat in r.users ==> u == r.users[chat]
    ensures chat !in r.users ==> IsEmpty(u)
  {
    if chat in r.users then r.users[chat] else EmptyUser
  }

  /** `INSERT INTO categories (name, chat_id)`: a new live row with a fresh id; names need not be unique. */
  function AddCategory(r: Repo, name: string, chat: int): (r': Repo)
    ensures |r'.categories| == |r.categories| + 1
    ensures r'.categories[..|r.categories|] == r.categories
    ensures var c := r'.categories[|r.categories|];
      c.name == name && c.chatId == chat && !c.isDeleted
    ensures Valid(r) ==> forall i :: 0 <= i < |r.categories| ==> r.categories[i].id != r'.categories[|r.categories|].id
    ensures r'.users == r.users && r'.transactions == r.transactions
    ensures Valid(r) ==> Valid(r')
  {
    var row := CategoryRow(r.nextCategoryId, name, chat, false);
    r.(categories := r.categories + [row], nextCategoryId := r.nextCategoryId + 1)
  }

  /**
   * `UPDATE categories SET name = $1 WHERE id = $2`: only the name of the
   * rows with that id changes, whoever owns them; an unknown id changes nothing.
   */
  function RenameCategory(r: Repo, id: int, name: string): (r': Repo)
    ensures |r'.categories| == |r.categories|
    ensures forall i :: 0 <= i < |r.categories| ==>
      var (c, c') := (r.categories[i], r'.categories[i]);
      && c'.id == c.id && c'.chatId == c.chatId && c'.isDeleted == c.isDeleted
      && c'.name == (if c.id == id then name else c.name)
    ensures r'.users == r.users && r'.transactions == r.transactions
    ensures r'.nextCategoryId == r.nextCategoryId
    ensures Valid(r) ==> Valid(r')
  {
    r.(categories := seq(|r.categories|, i requires 0 <= i < |r.categories| =>
      var c := r.categories[i];
      if c.id == id then c.(name := name) else c))
  }

  /**
   * The delete transaction: mark the chat's transactions of the category,
   * then the category row itself (both restricted to `chat`). No row is
   * removed; the caller applies both marks or, when the transaction fails, neither.
   */
  function DeleteCategory(r: Repo, chat: int, id: int): (r': Repo)
    ensures |r'.categories| == |r.categories| && |r'.transactions| == |r.transactions|
    ensures forall i :: 0 <= i < |r.categories| ==>
      var (c, c') := (r.categories[i], r'.categories[i]);
      && c' == c.(isDeleted := c'.isDeleted)
      && c'.isDeleted == (c.isDeleted || (c.id == id && c.chatId == chat))
    ensures forall i :: 0 <= i < |r.transactions| ==>
      var (t, t') := (r.transactions[i], r'.transactions[i]);
      && t' == t.(isDeleted := t'.isDeleted)
      && t'.isDeleted == (t.isDeleted || (t.categoryId == id && t.userChat == chat))
    ensures r'.users == r.users && r'.nextCategoryId == r.nextCategoryId
    ensures Valid(r) ==> Valid(r')
  {
    var txs := seq(|r.transactions|, i requires 0 <= i < |r.transactions| =>
      var t := r.transactions[i];
      if t.categoryId == id && t.userChat == chat then t.(isDeleted := true) else t);
    var cats := seq(|r.categories|, i requires 0 <= i < |r.categories| =>
      var c := r.categories[i];
      if c.id == id && c.chatId == chat then c.(isDeleted := true) else c);
    r.(transactions := txs, categories := cats)
  }

  /** The rows of `cats` that belong to `chat` and are live, in table order. */
  function LiveRows(cats: seq<CategoryRow>, chat: int): (live: seq<CategoryRow>)
    ensures forall c :: c in live <==> c in cats && c.chatId == chat && !c.isDeleted
    ensures forall c :: multiset(live)[c] == (if c.chatId == chat && !c.isDeleted then multiset(cats)[c] else 0)
    ensures |live| <= |cats|
    decreases |cats|
  {
    if |cats| == 0 then []
    else
      var c := cats[|cats| - 1];
      var prefix := cats[..|cats| - 1];
      assert cats == prefix + [c];
      var rest := LiveRows(prefix, chat);
      assert multiset(cats) == multiset(prefix) + multiset{c};
      if c.chatId == chat && !c.isDeleted then rest + [c] else rest
  }

  /**
   * `SELECT id, name FROM categories WHERE chat_id = $1 AND is_deleted = FALSE`,
   * in table order: every live row of the chat, each as often as it is stored, and no other.
   */
  function GetCategoriesByChatID(r: Repo, chat: int): (cats: seq<CategoryRow>)
    ensures forall c :: c in cats <==> c in r.categories && c.chatId == chat && !c.isDeleted
    ensures forall c :: multiset(cats)[c] == (if c.chatId == chat && !c.isDeleted then multiset(r.categories)[c] else 0)
  {
    LiveRows(r.categories, chat)
  }

  /**
   * Adding a category adds exactly that row to its chat's listing,
   * duplicates of a name included. As a multiset this holds whatever order
   * the database returns rows in; the sequence form is the model's table order.
   */
  lemma ListAfterAdd(r: Repo, name: string, chat: int)
    ensures multiset(GetCategoriesByChatID(AddCategory(r, name, chat), chat))
      == multiset(GetCategoriesByChatID(r, chat)) + multiset{CategoryRow(r.nextCategoryId, name, chat, false)}
    ensures GetCategoriesByChatID(AddCategory(r, name, chat), chat)
      == GetCategoriesByChatID(r, chat) + [CategoryRow(r.nextCategoryId, name, chat, false)]
  {
    var cats := AddCategory(r, name, chat).categories;
    assert cats[..|cats| - 1] == r.categories;
  }

  /** `INSERT INTO transactions (...)`: appends the row, touching no other table. */
  function AddTransaction(r: Repo, t: TransactionRow): (r': Repo)
    ensures |r'.transactions| == |r.transactions| + 1 && r'.transactions[|r.transactions|] == t
    ensures r'.transactions[..|r.transactions|] == r.transactions
    ensures r'.users == r.users && r'.categories == r.categories && r'.nextCategoryId == r.nextCategoryId
    ensures Valid(r) ==> Valid(r')
  {
    r.(transactions := r.transactions + [t])
  }

  // ---------------------------------------------------------------------
  // GetTransactionsStatsByCategory
  // ---------------------------------------------------------------------

  /**
   * `JOIN categories c ON t.category_id = c.id ... AND c.is_deleted = FALSE`:
   * the name of the category row with that id if it is live. (Ids are unique
   * under `Valid`, so the first row with the id is the only one.)
   */
  function JoinedName(cats: seq<CategoryRow>, id: int): (r: Option<string>)
    ensures r.Some? ==> exists i :: 0 <= i < |cats| && cats[i].id == id && !cats[i].isDeleted && cats[i].name == r.value
    ensures (forall i :: 0 <= i < |cats| && cats[i].id == id ==> cats[i].isDeleted) ==> r.None?
  {
    if |cats| == 0 then None
    else if cats[0].id == id then (if cats[0].isDeleted then None else Some(cats[0].name))
    else
      var r := JoinedName(cats[1..], id);
      assert r.Some? ==> exists i :: 0 <= i < |cats| && cats[i].id == id && !cats[i].isDeleted && cats[i].name == r.value by {
        if r.Some? {
          var i :| 0 <= i < |cats[1..]| && cats[1..][i].id == id && !cats[1..][i].isDeleted && cats[1..][i].name == r.value;
          assert cats[i + 1] == cats[1..][i];
        }
      }
      r
  }

  /**
   * The group a transaction adds to in the `kind` map, if any: the row must
   * belong to `chat` (`user_chat`), fall in `[start, end)`, carry the type tag
   * `kind` and join a live category. Transaction rows' own `is_deleted` is not read.
   */
  function Contributes(cats: seq<CategoryRow>, t: TransactionRow, chat: int, start: int, end: int, kind: string): Option<string>
  {
    if t.userChat == chat && start <= t.createdAt < end && t.transactionType == kind
    then JoinedName(cats, t.categoryId)
    else None
  }

  /** One map the stats query fills, with its keys in order of first appearance. */
  datatype Bucket = Bucket(sums: map<string, real>, keys: seq<string>)

  /** One scanned `(name, amount)` added into a map: a new key goes to the end of the order. */
  function AddTo(b: Bucket, name: string, amount: real): (b': Bucket)
    requires Enumerates(b.keys, b.sums)
    ensures Enumerates(b'.keys, b'.sums)
    ensures b'.sums.Keys == b.sums.Keys + {name}
    ensures MapSum(b'.sums) == MapSum(b.sums) + amount
  {
    if name in b.sums then
      MapSumUpdate(b.sums, name, b.sums[name] + amount);
      Bucket(b.sums[name := b.sums[name] + amount], b.keys)
    else
      MapSumUpdate(b.sums, name, amount);
      Bucket(b.sums[name := amount], b.keys + [name])
  }

  /**
   * Sums per category name of the contributing transactions of `txs`
   * (scanned left to right). The SQL returns one row per name and type and
   * the Go loop stores each row's sum under its name; adding transaction by
   * transaction gives the same map (`TallyValue`).
   */
  function Tally(cats: seq<CategoryRow>, txs: seq<TransactionRow>, chat: int, start: int, end: int, kind: string): (b: Bucket)
    ensures Enumerates(b.keys, b.sums)
    ensures forall k :: k in b.sums ==> exists i :: 0 <= i < |txs| && Contributes(cats, txs[i], chat, start, end, kind) == Some(k)
    decreases |txs|
  {
    if |txs| == 0 then Bucket(map[], [])
    else
      var prefix := txs[..|txs| - 1];
      var b := Tally(cats, prefix, chat, start, end, kind);
      var t := txs[|txs| - 1];
      assert forall i :: 0 <= i < |prefix| ==> prefix[i] == txs[i];
      match Contributes(cats, t, chat, start, end, kind)
      case None => b
      case Some(name) => AddTo(b, name, t.amount)
  }

  /** The reference total: the amounts of all contributing transactions of `txs`. */
  function QualifyingTotal(cats: seq<CategoryRow>, txs: seq<TransactionRow>, chat: int, start: int, end: int, kind: string): real
    decreases |txs|
  {
    if |txs| == 0 then 0.0
    else
      var t := txs[|txs| - 1];
      QualifyingTotal(cats, txs[..|txs| - 1], chat, start, end, kind)
        + (if Contributes(cats, t, chat, start, end, kind).Some? then t.amount else 0.0)
  }

  /** The values of a stats map add up to the amounts of exactly the qualifying transactions. */
  lemma {:induction false} TallySum(cats: seq<CategoryRow>, txs: seq<TransactionRow>, chat: int, start: int, end: int, kind: string)
    ensures MapSum(Tally(cats, txs, chat, start, end, kind).sums) == QualifyingTotal(cats, txs, chat, start, end, kind)
    decreases |txs|
  {
    if |txs| > 0 {
      TallySum(cats, txs[..|txs| - 1], chat, start, end, kind);
    }
  }

  /** Every contributing transaction's category name is a key of the map. */
  lemma {:induction false} TallyCovers(cats: seq<CategoryRow>, txs: seq<TransactionRow>, chat: int, start: int, end: int, kind: string, i: int)
    requires 0 <= i < |txs| && Contributes(cats, txs[i], chat, start, end, kind).Some?
    ensures Contributes(cats, txs[i], chat, start, end, kind).value in Tally(cats, txs, chat, start, end, kind).sums
    decreases |txs|
  {
    if i < |txs| - 1 {
      var prefix := txs[..|txs| - 1];
      assert prefix[i] == txs[i];
      TallyCovers(cats, prefix, chat, start, end, kind, i);
    }
  }

  /** The reference total of one group: the amounts of the contributing transactions of `txs` whose category name is `k`. */
  function NameTotal(cats: seq<CategoryRow>, txs: seq<TransactionRow>, chat: int, start: int, end: int, kind: string, k: string): real
    decreases |txs|
  {
    if |txs| == 0 then 0.0
    else
      var t := txs[|txs| - 1];
      NameTotal(cats, txs[..|txs| - 1], chat, start, end, kind, k)
        + (if Contributes(cats, t, chat, start, end, kind) == Some(k) then t.amount else 0.0)
  }

  /**
   * `GROUP BY c.name`: the value under a key is the sum of exactly the
   * contributing transactions joined to a live category of that name
   * (categories sharing a name merge into one key); a name no transaction
   * contributes to has nothing to sum.
   */
  lemma {:induction false} TallyValue(cats: seq<CategoryRow>, txs: seq<TransactionRow>, chat: int, start: int, end: int, kind: string, k: string)
    ensures var b := Tally(cats, txs, chat, start, end, kind);
      && (k in b.sums ==> b.sums[k] == NameTotal(cats, txs, chat, start, end, kind, k))
      && (k !in b.sums ==> NameTotal(cats, txs, chat, start, end, kind, k) == 0.0)
    decreases |txs|
  {
    if |txs| > 0 {
      var prefix := txs[..|txs| - 1];
      var t := txs[|txs| - 1];
      TallyValue(cats, prefix, chat, start, end, kind, k);
      var b := Tally(cats, prefix, chat, start, end, kind);
      var before := NameTotal(cats, prefix, chat, start, end, kind, k);
      match Contributes(cats, t, chat, start, end, kind)
      case None =>
        assert Tally(cats, txs, chat, start, end, kind) == b;
        assert NameTotal(cats, txs, chat, start, end, kind, k) == before;
      case Some(name) =>
        AddToValue(b, name, t.amount, k);
        assert Tally(cats, txs, chat, start, end, kind) == AddTo(b, name, t.amount);
        assert NameTotal(cats, txs, chat, start, end, kind, k) == before + (if name == k then t.amount else 0.0);
    }
  }

  /** Adding into a bucket changes only the value under that name. */
  lemma AddToValue(b: Bucket, name: string, amount: real, k: string)
    requires Enumerates(b.keys, b.sums)
    ensures var b' := AddTo(b, name, amount);
      && (k in b'.sums <==> k in b.sums || k == name)
      && (k in b'.sums ==> b'.sums[k] == (if k in b.sums then b.sums[k] else 0.0) + (if k == name then amount else 0.0))
  {
  }

  /** `TallyValue` for every key at once. */
  lemma TallyValues(cats: seq<CategoryRow>, txs: seq<TransactionRow>, chat: int, start: int, end: int, kind: string)
    ensures var b := Tally(cats, txs, chat, start, end, kind);
      forall k :: k in b.sums ==> b.sums[k] == NameTotal(cats, txs, chat, start, end, kind, k)
  {
    forall k | k in Tally(cats, txs, chat, start, end, kind).sums
      ensures Tally(cats, txs, chat, start, end, kind).sums[k] == NameTotal(cats, txs, chat, start, end, kind, k)
    {
      TallyValue(cats, txs, chat, start, end, kind, k);
    }
  }

  /**
   * An inserted transaction reaches the statistics exactly when it
   * contributes: the reference total grows by its amount then, and otherwise
   * stays as it was.
   */
  lemma AddTransactionStats(r: Repo, t: TransactionRow, chat: int, start: int, end: int, kind: string)
    ensures var r' := AddTransaction(r, t);
      QualifyingTotal(r'.categories, r'.transactions, chat, start, end, kind)
        == QualifyingTotal(r.categories, r.transactions, chat, start, end, kind)
          + (if Contributes(r.categories, t, chat, start, end, kind).Some? then t.amount else 0.0)
  {
    var txs := AddTransaction(r, t).transactions;
    assert txs[..|txs| - 1] == r.transactions;
  }

  /** The stats query result: the income map and the expense map (other type tags are dropped). */
  datatype Stats = Stats(income: Bucket, expense: Bucket)

  /** `GetTransactionsStatsByCategory(chat, start, end)`: grouped sums for the half-open window. */
  function GetTransactionsStatsByCategory(r: Repo, chat: int, start: int, end: int): (s: Stats)
    ensures Enumerates(s.income.keys, s.income.sums) && Enumerates(s.expense.keys, s.expense.sums)
    ensures MapSum(s.income.sums) == QualifyingTotal(r.categories, r.transactions, chat, start, end, IncomeTag)
    ensures MapSum(s.expense.sums) == QualifyingTotal(r.categories, r.transactions, chat, start, end, ExpenseTag)
    ensures forall k {:trigger NameTotal(r.categories, r.transactions, chat, start, end, IncomeTag, k)} ::
      k in s.income.sums ==> s.income.sums[k] == NameTotal(r.categories, r.transactions, chat, start, end, IncomeTag, k)
    ensures forall k {:trigger NameTotal(r.categories, r.transactions, chat, start, end, ExpenseTag, k)} ::
      k in s.expense.sums ==> s.expense.sums[k] == NameTotal(r.categories, r.transactions, chat, start, end, ExpenseTag, k)
  {
    TallyValues(r.categories, r.transactions, chat, start, end, IncomeTag);
    TallyValues(r.categories, r.transactions, chat, start, end, ExpenseTag);
    TallySum(r.categories, r.transactions, chat, start, end, IncomeTag);
    TallySum(r.categories, r.transactions, chat, start, end, ExpenseTag);
    Stats(
      Tally(r.categories, r.transactions, chat, start, end, IncomeTag),
      Tally(r.categories, r.transactions, chat, start, end, ExpenseTag))
  }

  /**
   * After a successful delete of a category the chat owns, the listing no
   * longer shows it and no transaction that referenced it reaches any
   * statistics, while every row is still in its table.
   */
  lemma DeleteHides(r: Repo, chat: int, id: int)
    requires Valid(r)
    requires exists i :: 0 <= i < |r.categories| && r.categories[i].id == id && r.categories[i].chatId == chat
    ensures var r' := DeleteCategory(r, chat, id);
      && |r'.categories| == |r.categories| && |r'.transactions| == |r.transactions|
      && (forall c :: c in GetCategoriesByChatID(r', chat) ==> c.id != id)
      && (forall t: TransactionRow, who: int, start: int, end: int, kind: string :: t.categoryId == id ==> Contributes(r'.categories, t, who, start, end, kind).None?)
  {
    var r' := DeleteCategory(r, chat, id);
    forall i | 0 <= i < |r'.categories| && r'.categories[i].id == id
      ensures r'.categories[i].isDeleted
    {
      var j :| 0 <= j < |r.categories| && r.categories[j].id == id && r.categories[j].chatId == chat;
      assert i == j;
    }
  }
}

=== FILE: text.dfy ===
/**
 * The few functions of Go's `strings` package the bot relies on, over strings
 * seen as sequences of runes: `Split` with a one-character separator,
 * `ReplaceAll` with an empty replacement, and `TrimSpace`.
 */
module Text {

  /** The pieces joined back with the separator between them: the inverse of `Split`. */
  function Join(parts: seq<string>, sep: char): string
    requires |parts| >= 1
    decreases |parts|
  {
    if |parts| == 1 then parts[0] else parts[0] + [sep] + Join(parts[1..], sep)
  }

  /** Number of occurrences of `c` in `s`. */
  function Count(s: string, c: char): nat
  {
    if |s| == 0 then 0 else (if s[0] == c then 1 else 0) + Count(s[1..], c)
  }

  /**
   * strings.Split(s, sep): the maximal separator-free pieces between
   * separators. There is always at least one piece; the empty string splits
   * into one empty piece.
   */
  function Split(s: string, sep: char): (parts: seq<string>)
    ensures |parts| >= 1
    ensures |parts| == Count(s, sep) + 1
    ensures forall i :: 0 <= i < |parts| ==> sep !in parts[i]
    ensures Join(parts, sep) == s
    decreases |s|
  {
    if |s| == 0 then [""]
    else
      var rest := Split(s[1..], sep);
      if s[0] == sep then
        assert ([""] + rest)[1..] == rest;
        [""] + rest
      else
        var r := [[s[0]] + rest[0]] + rest[1..];
        assert r[1..] == rest[1..];
        r
  }

  /** Splitting a separator-free string gives the string itself. */
  lemma {:induction false} SplitNoSep(a: string, sep: char)
    requires sep !in a
    ensures Split(a, sep) == [a]
  {
    if |a| > 0 {
      SplitNoSep(a[1..], sep);
    }
  }

  /** Splitting `a + sep + b` peels off `a` as the first piece when `a` has no separator. */
  lemma {:induction false} SplitPrefix(a: string, sep: char, b: string)
    requires sep !in a
    ensures Split(a + [sep] + b, sep) == [a] + Split(b, sep)
    decreases |a|
  {
    var s := a + [sep] + b;
    if |a| == 0 {
      assert s[1..] == b;
    } else {
      assert s[1..] == a[1..] + [sep] + b;
      SplitPrefix(a[1..], sep, b);
      assert [a[0]] + a[1..] == a;
    }
  }

  /** Split undoes Join when no piece holds the separator. */
  lemma {:induction false} SplitJoin(parts: seq<string>, sep: char)
    requires |parts| >= 1
    requires forall i :: 0 <= i < |parts| ==> sep !in parts[i]
    ensures Split(Join(parts, sep), sep) == parts
    decreases |parts|
  {
    if |parts| == 1 {
      SplitNoSep(parts[0], sep);
    } else {
      SplitJoin(parts[1..], sep);
      SplitPrefix(parts[0], sep, Join(parts[1..], sep));
      assert [parts[0]] + parts[1..] == parts;
    }
  }

  /** A character absent from the string is absent from every piece of it. */
  lemma {:induction false} SplitAbsent(s: string, sep: char, c: char)
    requires c !in s
    ensures forall i :: 0 <= i < |Split(s, sep)| ==> c !in Split(s, sep)[i]
    decreases |s|
  {
    if |s| > 0 {
      assert c !in s[1..] by {
        assert forall k :: 0 <= k < |s[1..]| ==> s[1..][k] == s[k + 1];
      }
      SplitAbsent(s[1..], sep, c);
    }
  }

  /** strings.ReplaceAll(s, [c], ""): every occurrence of `c` removed, the rest kept in order. */
  function Remove(s: string, c: char): (r: string)
    ensures c !in r
    ensures |r| == |s| - Count(s, c)
    ensures c !in s ==> r == s
  {
    if |s| == 0 then ""
    else if s[0] == c then Remove(s[1..], c)
    else [s[0]] + Remove(s[1..], c)
  }

  /** Removal distributes over concatenation. */
  lemma {:induction false} RemoveConcat(a: string, b: string, c: char)
    ensures Remove(a + b, c) == Remove(a, c) + Remove(b, c)
    decreases |a|
  {
    if |a| > 0 {
      assert (a + b)[1..] == a[1..] + b;
      RemoveConcat(a[1..], b, c);
    } else {
      assert a + b == b;
    }
  }

  /** unicode.IsSpace: the white-space runes strings.TrimSpace removes. */
  predicate IsSpace(c: char)
  {
    || c == ' ' || c == '\t' || c == '\n' || c == '\U{B}' || c == '\U{C}' || c == '\r'
    || c == '\U{85}' || c == '\U{A0}' || c == '\U{1680}'
    || ('\U{2000}' <= c <= '\U{200A}')
    || c == '\U{2028}' || c == '\U{2029}' || c == '\U{202F}' || c == '\U{205F}' || c == '\U{3000}'
  }

  /** Drops leading white space: the result is a suffix and only spaces were dropped. */
  function TrimLeft(s: string): (r: string)
    ensures |r| <= |s| && r == s[|s| - |r|..]
    ensures forall k :: 0 <= k < |s| - |r| ==> IsSpace(s[k])
    ensures r == [] || !IsSpace(r[0])
  {
    if |s| > 0 && IsSpace(s[0]) then TrimLeft(s[1..]) else s
  }

  /** Drops trailing white space: the result is a prefix and only spaces were dropped. */
  function TrimRight(s: string): (r: string)
    ensures |r| <= |s| && r == s[..|r|]
    ensures forall k :: |r| <= k < |s| ==> IsSpace(s[k])
    ensures r == [] || !IsSpace(r[|r| - 1])
    ensures |s| > 0 && !IsSpace(s[|s| - 1]) ==> r == s
  {
    if |s| > 0 && IsSpace(s[|s| - 1]) then TrimRight(s[..|s| - 1]) else s
  }

  /** strings.TrimSpace. */
  function TrimSpace(s: string): (r: string)
    ensures |r| <= |s|
    ensures r == [] || (!IsSpace(r[0]) && !IsSpace(r[|r| - 1]))
  {
    TrimRight(TrimLeft(s))
  }

  /** TrimSpace leaves alone a string that starts and ends with non-space runes. */
  lemma TrimSpaceNoop(s: string)
    requires |s| > 0 && !IsSpace(s[0]) && !IsSpace(s[|s| - 1])
    ensures TrimSpace(s) == s
  {
  }
}

=== FILE: util.dfy ===
/**
 * internal/bot/util.go: the statistics report. Amounts are reals and the
 * `%.1f` rendering is an opaque formatter `fmt`; the order in which Go's
 * `range` visits each map is given as an explicit key enumeration.
 */
module Util {
  import opened Text
  import opened Maps

  const StatsTitle: string := "\U{1F4CA} *Статистика за период*"
  const IncomeLabel: string := "\U{1F4B0} *Доход*: "
  const ExpenseLabel: string := "\U{1F4B8} *Расход*: "
  const NetLabel: string := "\U{1F4B9} *Итого*: "

  /** One line `  - name: amount` of a category breakdown, without its newline. */
  function CategoryLine(name: string, amount: string): string
  {
    "  - " + name + ": " + amount
  }

  /** The breakdown lines of one map, in visiting order. */
  function CategoryLines(keys: seq<string>, m: map<string, real>, fmt: real -> string): (lines: seq<string>)
    requires forall i :: 0 <= i < |keys| ==> keys[i] in m
    ensures |lines| == |keys|
    ensures forall i :: 0 <= i < |keys| ==> lines[i] == CategoryLine(keys[i], fmt(m[keys[i]]))
  {
    if |keys| == 0 then [] else [CategoryLine(keys[0], fmt(m[keys[0]]))] + CategoryLines(keys[1..], m, fmt)
  }

  /** Each line followed by a newline, as `strings.Builder` receives them. */
  function Block(lines: seq<string>): string
  {
    if |lines| == 0 then "" else lines[0] + "\n" + Block(lines[1..])
  }

  /** The three figures of the report. */
  datatype Totals = Totals(income: real, expense: real, net: real)

  /** `sumMapValues` of both maps and their difference, summed in visiting order. */
  function StatsTotals(income: map<string, real>, expense: map<string, real>, incomeKeys: seq<string>, expenseKeys: seq<string>): (t: Totals)
    requires Enumerates(incomeKeys, income) && Enumerates(expenseKeys, expense)
    ensures t.income == MapSum(income) && t.expense == MapSum(expense)
    ensures t.net == MapSum(income) - MapSum(expense)
  {
    SumOverEnumeration(incomeKeys, income);
    SumOverEnumeration(expenseKeys, expense);
    var ti := SumOver(incomeKeys, income);
    var te := SumOver(expenseKeys, expense);
    Totals(ti, te, ti - te)
  }

  /**
   * The newline-terminated lines `getStats` writes before the net figure:
   * the title and a blank line, the income total, one line per income
   * category, a blank line and the expense total, one line per expense
   * category, and the blank line before the net figure.
   */
  function ReportHead(income: map<string, real>, expense: map<string, real>,
                      incomeKeys: seq<string>, expenseKeys: seq<string>, fmt: real -> string): (head: seq<string>)
    requires Enumerates(incomeKeys, income) && Enumerates(expenseKeys, expense)
    ensures |head| == 6 + |incomeKeys| + |expenseKeys|
  {
    var t := StatsTotals(income, expense, incomeKeys, expenseKeys);
    SumOverEnumeration(incomeKeys, income);
    SumOverEnumeration(expenseKeys, expense);
    [StatsTitle, "", IncomeLabel + fmt(t.income)]
      + CategoryLines(incomeKeys, income, fmt)
      + ["", ExpenseLabel + fmt(t.expense)]
      + CategoryLines(expenseKeys, expense, fmt)
      + [""]
  }

  /**
   * `getStats`: the head lines, each written with its newline, then the net
   * figure with no newline after it.
   */
  function GetStats(income: map<string, real>, expense: map<string, real>,
                    incomeKeys: seq<string>, expenseKeys: seq<string>, fmt: real -> string): (report: string)
    requires Enumerates(incomeKeys, income) && Enumerates(expenseKeys, expense)
    ensures var net := NetLabel + fmt(MapSum(income) - MapSum(expense));
      |report| >= |net| && report[|report| - |net|..] == net
  {
    var t := StatsTotals(income, expense, incomeKeys, expenseKeys);
    var head := Block(ReportHead(income, expense, incomeKeys, expenseKeys, fmt));
    var net := NetLabel + fmt(t.net);
    EndsWith(head, net);
    head + net
  }

  lemma EndsWith(a: string, b: string)
    ensures |a + b| >= |b| && (a + b)[|a + b| - |b|..] == b
  {
  }

  /** The report's lines, from the title to the net figure. */
  function ReportLines(income: map<string, real>, expense: map<string, real>,
                       incomeKeys: seq<string>, expenseKeys: seq<string>, fmt: real -> string): seq<string>
    requires Enumerates(incomeKeys, income) && Enumerates(expenseKeys, expense)
  {
    var t := StatsTotals(income, expense, incomeKeys, expenseKeys);
    ReportHead(income, expense, incomeKeys, expenseKeys, fmt) + [NetLabel + fmt(t.net)]
  }

  /** Empty maps: both totals and the net are 0 and no category line appears. */
  lemma EmptyReport(fmt: real -> string)
    ensures ReportLines(map[], map[], [], [], fmt)
      == [StatsTitle, "", IncomeLabel + fmt(0.0), "", ExpenseLabel + fmt(0.0), "", NetLabel + fmt(0.0)]
  {
    var t := StatsTotals(map[], map[], [], []);
    assert t == Totals(0.0, 0.0, 0.0);
  }

  lemma {:induction false} BlockConcat(a: seq<string>, b: seq<string>)
    ensures Block(a + b) == Block(a) + Block(b)
  {
    if |a| > 0 {
      assert (a + b)[1..] == a[1..] + b;
      BlockConcat(a[1..], b);
    } else {
      assert a + b == b;
    }
  }

  lemma {:induction false} JoinBlock(lines: seq<string>, last: string)
    ensures Join(lines + [last], '\n') == Block(lines) + last
  {
    if |lines| > 0 {
      assert (lines + [last])[1..] == lines[1..] + [last];
      JoinBlock(lines[1..], last);
    } else {
      assert lines + [last] == [last];
    }
  }

  /**
   * When neither category names nor formatted amounts contain a newline,
   * cutting the report at newlines gives back exactly its lines in order:
   * one line per category of each map, between the fixed lines.
   */
  lemma ReportLayout(income: map<string, real>, expense: map<string, real>,
                     incomeKeys: seq<string>, expenseKeys: seq<string>, fmt: real -> string)
    requires Enumerates(incomeKeys, income) && Enumerates(expenseKeys, expense)
    requires forall x: real :: '\n' !in fmt(x)
    requires forall k :: k in income || k in expense ==> '\n' !in k
    ensures Split(GetStats(income, expense, incomeKeys, expenseKeys, fmt), '\n')
      == ReportLines(income, expense, incomeKeys, expenseKeys, fmt)
    ensures |ReportLines(income, expense, incomeKeys, expenseKeys, fmt)| == 7 + |income| + |expense|
  {
    var t := StatsTotals(income, expense, incomeKeys, expenseKeys);
    var head := ReportHead(income, expense, incomeKeys, expenseKeys, fmt);
    var net := NetLabel + fmt(t.net);
    var lines := ReportLines(income, expense, incomeKeys, expenseKeys, fmt);
    assert lines == head + [net];
    JoinBlock(head, net);
    assert GetStats(income, expense, incomeKeys, expenseKeys, fmt) == Join(lines, '\n');
    ReportLinesNoNewline(income, expense, incomeKeys, expenseKeys, fmt);
    SplitJoin(lines, '\n');
    EnumerationLength(incomeKeys, income);
    EnumerationLength(expenseKeys, expense);
  }

  /** No line holds a newline. */
  predicate SingleLines(lines: seq<string>)
  {
    forall i :: 0 <= i < |lines| ==> '\n' !in lines[i]
  }

  lemma SingleLinesConcat(a: seq<string>, b: seq<string>)
    requires SingleLines(a) && SingleLines(b)
    ensures SingleLines(a + b)
  {
    forall i | 0 <= i < |a + b|
      ensures '\n' !in (a + b)[i]
    {
      if i >= |a| { assert (a + b)[i] == b[i - |a|]; }
    }
  }

  lemma CategoryLinesSingle(keys: seq<string>, m: map<string, real>, fmt: real -> string)
    requires forall i :: 0 <= i < |keys| ==> keys[i] in m && '\n' !in keys[i]
    requires forall x: real :: '\n' !in fmt(x)
    ensures SingleLines(CategoryLines(keys, m, fmt))
  {
    var lines := CategoryLines(keys, m, fmt);
    forall i | 0 <= i < |lines|
      ensures '\n' !in lines[i]
    {
      var v: real := m[keys[i]];
      assert '\n' !in fmt(v);
      assert lines[i] == "  - " + keys[i] + ": " + fmt(v);
      assert '\n' !in "  - " && '\n' !in ": ";
    }
  }

  lemma ReportLinesNoNewline(income: map<string, real>, expense: map<string, real>,
                             incomeKeys: seq<string>, expenseKeys: seq<string>, fmt: real -> string)
    requires Enumerates(incomeKeys, income) && Enumerates(expenseKeys, expense)
    requires forall x: real :: '\n' !in fmt(x)
    requires forall k :: k in income || k in expense ==> '\n' !in k
    ensures SingleLines(ReportLines(income, expense, incomeKeys, expenseKeys, fmt))
  {
    var t := StatsTotals(income, expense, incomeKeys, expenseKeys);
    SumOverEnumeration(incomeKeys, income);
    SumOverEnumeration(expenseKeys, expense);
    var il := CategoryLines(incomeKeys, income, fmt);
    var el := CategoryLines(expenseKeys, expense, fmt);
    CategoryLinesSingle(incomeKeys, income, fmt);
    CategoryLinesSingle(expenseKeys, expense, fmt);
    var a := [StatsTitle, "", IncomeLabel + fmt(t.income)];
    var b := ["", ExpenseLabel + fmt(t.expense)];
    var c := ["", NetLabel + fmt(t.net)];
    FixedLinesSingle(fmt(t.income), fmt(t.expense), fmt(t.net));
    SingleLinesConcat(a, il);
    SingleLinesConcat(a + il, b);
    SingleLinesConcat(a + il + b, el);
    SingleLinesConcat(a + il + b + el, c);
    assert ReportHead(income, expense, incomeKeys, expenseKeys, fmt) == a + il + b + el + [""];
    assert a + il + b + el + [""] + [c[1]] == a + il + b + el + c;
  }

  /** The fixed lines hold no newline when the figures hold none. */
  lemma FixedLinesSingle(income: string, expense: string, net: string)
    requires '\n' !in income && '\n' !in expense && '\n' !in net
    ensures SingleLines([StatsTitle, "", IncomeLabel + income])
    ensures SingleLines(["", ExpenseLabel + expense]) && SingleLines(["", NetLabel + net])
  {
    assert '\n' !in StatsTitle && '\n' !in IncomeLabel && '\n' !in ExpenseLabel && '\n' !in NetLabel;
  }

  /** An enumeration has as many entries as the map has keys. */
  lemma EnumerationLength(keys: seq<string>, m: map<string, real>)
    requires Enumerates(keys, m)
    ensures |keys| == |m|
  {
    var s := set i | 0 <= i < |keys| :: keys[i];
    assert s == m.Keys;
    DistinctCard(keys);
  }

  lemma {:induction false} DistinctCard(keys: seq<string>)
    requires forall i, j :: 0 <= i < j < |keys| ==> keys[i] != keys[j]
    ensures |set i | 0 <= i < |keys| :: keys[i]| == |keys|
  {
    if |keys| > 0 {
      var rest := keys[1..];
      DistinctCard(rest);
      var s := set i | 0 <= i < |keys| :: keys[i];
      var s' := set i | 0 <= i < |rest| :: rest[i];
      assert s == s' + {keys[0]} by {
        forall x | x in s ensures x in s' + {keys[0]} {
          var i :| 0 <= i < |keys| && keys[i] == x;
          if i > 0 { assert rest[i - 1] == x; }
        }
        forall x | x in s' ensures x in s {
          var i :| 0 <= i < |rest| && rest[i] == x;
          assert keys[i + 1] == x;
        }
      }
      assert keys[0] !in s' by {
        forall x | x in s' ensures x != keys[0] {
          var i :| 0 <= i < |rest| && rest[i] == x;
          assert keys[i + 1] == x;
        }
      }
    }
  }

  /** The totals, and hence the net line, do not depend on the order Go visits the maps in. */
  lemma TotalsOrderFree(income: map<string, real>, expense: map<string, real>,
                        ik1: seq<string>, ek1: seq<string>, ik2: seq<string>, ek2: seq<string>)
    requires Enumerates(ik1, income) && Enumerates(ek1, expense)
    requires Enumerates(ik2, income) && Enumerates(ek2, expense)
    ensures StatsTotals(income, expense, ik1, ek1) == StatsTotals(income, expense, ik2, ek2)
  {
  }
}

=== FILE: wrappers.dfy ===
/** Option and Result values standing in for Go's `(value, error)` returns. */
module Wrappers {

  datatype Option<+T> = None | Some(value: T)

  datatype Result<+T> = Ok(value: T) | Err(error: string)
}
